=== FILE: README.md ===
# A model of `extractBet`, the JST-style bet parser

The betting calculator page reads a free-text wager such as
`The sun will come up tomorrow, 10 bid` or `This coin toss will come up heads, 50 bid at 50`.
It splits the wager into a bid, an ask and a proposition, and then shows
what each side owes for a stake. This project models two things:

- **`extractBet` (bid.jsx:3-35).**
  - The two regular expressions are replaced by explicit matchers over `seq<char>`.
  - Each matcher is proved to return exactly the match a backtracking engine reports.
  - Around the matchers sit the `exec` loop and the rebuilding of the proposition.
- **The payment and odds figures the page derives from a bet.** These are `amount*p`, `amount*(1-p)` and `p*100`, computed over exact reals.

Modules, in dependency order:

- **`Wrappers`**: `Option`.
- **`Text`**: characters and words.
  - The ECMAScript white-space and line-terminator sets.
  - Space runs and the value of one or two digits.
  - `trim`.
- **`SubClause`**: the alternation `NN bid | at NN | bid NN` at one position.
  - The ways it can match are stated declaratively: `Parses`, and the order in which the engine tries them, `TriedBefore`.
  - The matcher `MatchSubClause` is proved to return the first one.
- **`Statement`**: the outer pattern of bid.jsx:4.
  - The lazy prefix `(.*?)`, the optional comma, the leading spaces, the greedy group `{1,2}`, the optional `that *` and the suffix.
  - These are stated declaratively by `ShapeParses` and `ShapeTriedBefore`.
  - They are computed by `MatchStatement`, which searches prefix lengths shortest first.
- **`Scan`**: the global `exec` loop of bid.jsx:10-27 over the isolated clause.
  - The list of every match, `Hits`.
  - The loop, `Collect`.
  - The reference meaning "the last match of each side wins", `LastOf`.
- **`Extract`**: `ExtractBet` itself and its properties.
- **`RoundTrip`**: statements written the usual way (`x, NN bid`, `x, at NN`, `x, NN bid at NN`) read back to their trimmed sentence and numbers.
- **`Reparse`**: reading a proposition again.
  - For the usual forms after a trimmed sentence it holds no bet.
  - A sub-clause left in the suffix lands in the proposition and is read again as a price. This happens to a third sub-clause, since the group takes at most two, and to one after `that`.
- **`Payoff`**: the figures of bid.jsx:204, 212, 224-227 and 236-239.
- **`Examples`**: the page's example statements and the two quirks, on concrete strings.

Prices are `n/100` for a whole `n` below 100, represented as exact Dafny reals. A `null` field is `None`.

The round-trip lemmas speak of a *sentence*: text with no line terminator in which no sub-clause reading starts at any position. A sentence may hold digits, `at` or `bid` where they do not form a sub-clause, as in `past 10pm`.

## Model

| member | source | states |
|---|---|---|
| Text.Trim | bid.jsx:28-32 | `trim` returns a slice of its input with only white space cut off before and after it, and none left at either end. Its result is empty exactly when the input is all white space, and it leaves text that is already trimmed unchanged. |
| Text.SpaceRun | bid.jsx:4 | A greedy ` *` takes every space from the position on: everything it takes is a space, and the character after the run is not one. |
| Text.NumberAt | bid.jsx:19 | `parseFloat` of one or two digits is below 100, and of one digit below 10. |
| Text.LineFree | bid.jsx:4 | The scan for line terminators succeeds exactly when no character from the position on is LF, CR, U+2028 or U+2029. |
| SubClause.TrailIsLongest | bid.jsx:4 | The trailing ` *(?:(?=[^0-9])\|$)` of `NN bid` takes the largest admissible number of spaces, and it fails only when no number is admissible. |
| SubClause.Percent | bid.jsx:10 | The number a sub-clause captures is below 100. |
| SubClause.KeywordOrder | bid.jsx:4 | Within `at NN` or `bid NN`, the reading with more digits, and then more trailing spaces, is tried first (greedy quantifiers). |
| SubClause.SubClauseIsFirst | bid.jsx:4 | `MatchSubClause` returns the reading of the alternation that is tried before every other reading at the position. It returns nothing exactly when none exists. |
| SubClause.LengthBounds | bid.jsx:4 | Every sub-clause is non-empty, at least three characters long, and lies inside the text. This is what makes the `exec` loop terminate. |
| SubClause.StartsWithKeywordOrDigit | bid.jsx:4 | A sub-clause starts with a digit, `at` or `bid`, so never with a space or a comma. |
| SubClause.NoLineTerminatorInside | bid.jsx:4 | A sub-clause contains no line terminator. |
| SubClause.ParsesInWindow | bid.jsx:10-14 | A sub-clause found in the statement is still a sub-clause at the start of the isolated clause text and captures the same number. At the clause's end, `$` holds wherever the statement had a non-digit. |
| SubClause.ParsesInPrefix | bid.jsx:4 | A sub-clause reading that ends by `e` is still a reading when the text is cut at `e`: the `$` of the look-ahead holds at the cut. |
| SubClause.ParsesInSuffix | bid.jsx:4 | The pattern looks only forward, so a reading is still a reading when any text before it is removed. |
| SubClause.ReadingChars | bid.jsx:4 | A sub-clause consists only of digits, spaces and the letters of `at` and `bid`; in particular it never spans a comma or a period. |
| SubClause.NoReadingAtNumber | bid.jsx:4 | Digits followed by neither a space nor `bid` (as in `10pm`) start no sub-clause. |
| Statement.GroupIsFirst | bid.jsx:4 | The `{1,2}` group matcher returns the first reading in the engine's order, with a second sub-clause preferred to none. It returns nothing exactly when no group matches. |
| Statement.ThatIsFirst | bid.jsx:4 | `(?:that *)?` takes `that` with all its spaces whenever `that` is present. Every other reading is tried later. |
| Statement.StatementIsFirst | bid.jsx:4 | `MatchStatement` returns the match a backtracking engine reports: a reading of the whole pattern that is tried before every other reading, shortest prefix first. It returns nothing exactly when the pattern cannot match. |
| Statement.NoShorterPrefix | bid.jsx:4 | If no sub-clause can start before `n`, and the character before `n` is neither a space nor a comma, then no reading has a prefix shorter than `n`. |
| Statement.NoPrefixBeforeComma | bid.jsx:4 | If no sub-clause can start before a comma at `n`, no reading has a prefix shorter than `n`: the clause would have to start past the comma. |
| Statement.PlainHasNoReading | bid.jsx:4 | Where no digit, `at` or `bid` stands, no sub-clause reading starts. |
| Statement.ShapeOrderAsymmetric | bid.jsx:4 | The order of trial is strict: two readings are never each tried before the other. |
| Statement.PlainPrefix | bid.jsx:4 | If no sub-clause can start in the first `n` characters, and either a comma follows them or they end in neither a space nor a comma, then the match is the first reading whose prefix is at least `n` long. |
| Statement.ShapeCoversInput | bid.jsx:4 | Any input the pattern matches has no line terminator, since `.` excludes them and there is no `s` or `m` flag. |
| Scan.HitAt | bid.jsx:10 | A sticky match of the inner pattern starts at the position, ends inside the text and captures a number below 100. |
| Scan.ExecIsFirst | bid.jsx:14 | `exec` from `lastIndex` returns the first reading at the leftmost position where the alternation matches, with its capture. It returns `null` exactly when no reading starts at or after `lastIndex`. |
| Scan.Hits | bid.jsx:13-17 | The successive matches of the `g` scan lie inside the text, capture numbers below 100, and each starts at or after the end of the one before. |
| Scan.LastOf | bid.jsx:13-27 | A side has no value exactly when no match in the clause is on that side. |
| Scan.LastOfCons | bid.jsx:13-27 | With one more match in front, the last value of a side comes from the rest when the rest has one, and otherwise from the new match. |
| Scan.ScanKeepsLast | bid.jsx:13-27 | The loop ends with the bid of the last `NN bid` or `bid NN` match and the ask of the last `at NN` match. Earlier values are overwritten silently. |
| Scan.ScanFindsOne | bid.jsx:12-27 | A clause that starts with a sub-clause yields a bid or an ask. |
| Extract.Fraction | bid.jsx:19 | `parseFloat(n)/100.0`: a price of `n` hundredths, at least zero, below one when `n` is below 100. |
| Extract.JoinTrimmed | bid.jsx:28-32 | Joining two trimmed pieces gives trimmed text, which is empty only when both pieces are. |
| Extract.Proposition | bid.jsx:28-32 | The proposition has no white space at either end. It is empty exactly when both the prefix and the suffix are all white space. |
| Extract.PropositionSplits | bid.jsx:28-32 | The proposition is the trimmed prefix, ` ... ` and the trimmed suffix when both are non-empty, and otherwise the one that is non-empty. |
| Extract.ExtractBet | bid.jsx:3-35 | A `null` proposition comes with a `null` bid and a `null` ask. |
| Extract.NoMatchMeansNothing | bid.jsx:5-9 | All three fields are `null` exactly when no reading of the outer pattern exists. |
| Extract.LineBreakMeansNothing | bid.jsx:4 | A statement that contains a line terminator is not a bet. |
| Extract.MatchedBet | bid.jsx:8-33 | On a match, the proposition comes from the lazily shortest prefix and the suffix. The bid and the ask are the last values of their sides in the clause. |
| Extract.MatchHasPrice | bid.jsx:4 | Whenever the proposition is non-null, at least one of the bid and the ask is non-null. |
| Extract.PricesAreHundredths | bid.jsx:10-26 | Every price is `n/100` for a whole `n` below 100. |
| Extract.LastBelow100 | bid.jsx:13-27 | The last value of a side is below 100 when every match's value is. |
| RoundTrip.NumeralReadsBack | bid.jsx:19 | Writing a number below 100 in decimal and reading it with `[0-9]{1,2}` and `parseFloat` gives the number back. |
| RoundTrip.ValueWritesBack | bid.jsx:19 | Reading a one- or two-digit numeral with no leading zero and writing its value gives the numeral back. |
| RoundTrip.BidStatement | bid.jsx:3-35 | For a sentence `x` (no line break, and no sub-clause starts in it), `x, u bid` gives the bid `u/100`, no ask, and the trimmed `x` as the proposition. |
| RoundTrip.AskStatement | bid.jsx:3-35 | For a sentence `x`, `x, at v` gives no bid, the ask `v/100`, and the trimmed `x` as the proposition. |
| RoundTrip.BidAskStatement | bid.jsx:3-35 | For a sentence `x`, `x, u bid at v` gives the bid `u/100`, the ask `v/100`, and the trimmed `x` as the proposition. |
| RoundTrip.BidRoundTrip | bid.jsx:3-35 | Writing `n` as `x, n bid` after a sentence `x` and parsing gives back the bid `n/100` and the trimmed sentence. |
| RoundTrip.AskRoundTrip | bid.jsx:3-35 | Writing `n` as `x, at n` after a sentence `x` and parsing gives back the ask `n/100` and the trimmed sentence. |
| RoundTrip.BidAskRoundTrip | bid.jsx:3-35 | Writing `b` and `a` as `x, b bid at a` after a sentence `x` and parsing gives back both prices and the trimmed sentence. |
| RoundTrip.PlainIsSentence | bid.jsx:4 | Text with no line break and none of a digit, `at` or `bid` is a sentence. |
| RoundTrip.SentenceAfterPlain | bid.jsx:4 | Such plain text followed by a sentence that starts with a space is a sentence: sentences may hold digits where they form no sub-clause. |
| RoundTrip.UnreadBeforeComma | bid.jsx:4 | Writing `, c` after a sentence starts no sub-clause inside the sentence, whatever `c` is. |
| Reparse.UnreadIsNothing | bid.jsx:3-35 | Text in which no sub-clause reading starts is not a bet. |
| Reparse.EmptyIsNothing | bid.jsx:3-35 | The empty statement is not a bet. |
| Reparse.UsualFormsReparse | bid.jsx:3-35 | For each usual form written after a trimmed sentence, the proposition is the sentence, and reading the sentence again gives no bet. |
| Reparse.ThreeStatement | bid.jsx:4 | In `x, u bid at v at w` the group stops after two sub-clauses. The bet is the bid `u/100`, the ask `v/100` and the proposition `x ... at w`. |
| Reparse.UnreadBeforeEllipsis | bid.jsx:28-32 | Joining ` ... ` and a suffix after a sentence starts no sub-clause inside the sentence or the ellipsis. |
| Reparse.EllipsisAsk | bid.jsx:3-35 | `x ... at w` as a statement of its own is the ask `w/100` with the proposition `x ...`. |
| Reparse.ThirdSubClauseIsReadAgain | bid.jsx:3-35 | Reading the proposition of `x, u bid at v at w` again is not idempotent: it yields the ask `w/100`, although the statement had the ask `v/100`. |
| Reparse.ThatStatement | bid.jsx:4 | In `x, u bid that at v` the `that *` closes the clause: the bet is the bid `u/100`, no ask, and the proposition `x ... at v`. |
| Reparse.ThatSubClauseIsReadAgain | bid.jsx:3-35 | Reading the proposition of `x, u bid that at v` again yields the ask `v/100`, which the statement itself did not have. |
| Payoff.Regardless | bid.jsx:204 | The "regardless" payment `amount*p` is shown exactly when the price is not `null`. |
| Payoff.Remainder | bid.jsx:204 | The "adds up to" figure `amount*(1-p)` is the stake minus the "regardless" payment, and it is shown exactly when the price is not `null`. |
| Payoff.Percentage | bid.jsx:153-159 | `percent` passes `null` through, and otherwise gives the number that divided by 100 is the price. |
| Payoff.PaymentsSplitStake | bid.jsx:225-227 | For a price between 0 and 1 and a non-negative stake, both sides' amounts lie between nothing and the stake and add up to it. |
| Payoff.ParsedPricesSplitStake | bid.jsx:237-239 | For any statement and any non-negative stake, the amounts shown for the parsed bid and for the parsed ask split the stake. |
| Payoff.OddsAddUp | bid.jsx:224 | The yes odds `percent(p)` and the no odds `percent(1-p)`, taken before `toFixed(0)` and over exact reals, add up to 100. The two rounded strings the page shows are not covered. |
| Payoff.PercentageOfFraction | bid.jsx:153-159 | In exact reals, a price of `n` hundredths times 100 is exactly `n` percent. |
| Examples.SunExample | bid.jsx:120 | `The sun will come up tomorrow, 10 bid` gives the bid 0.10, no ask, and the sentence as the proposition. |
| Examples.CoinExample | bid.jsx:121 | `This coin toss will come up heads, 50 bid at 50` gives the bid 0.5 and the ask 0.5. |
| Examples.DeskExample | bid.jsx:123 | `Your desk is going to collapse, at 10` gives no bid and the ask 0.10. |
| Examples.KarenExample | bid.jsx:122 | `Karen will work past 10pm today, 70 bid at 90` gives the bid 0.70, the ask 0.90, and the whole sentence, `10pm` included, as the proposition. |
| Examples.SaleExample | bid.jsx:124 | `This sale will go through without and yet we won't hear back from them in the next week, 30 bid at 50` gives the bid 0.30, the ask 0.50, and the sentence as the proposition. |
| Examples.SunThreeExample | bid.jsx:4 | `The sun will come up tomorrow, 10 bid at 20 at 30` gives the bid 0.10, the ask 0.20 and the proposition `The sun will come up tomorrow ... at 30`. |
| Examples.SunThreeAgain | bid.jsx:3-35 | That proposition, read again, gives the ask 0.30. |
| Examples.SunThatExample | bid.jsx:4 | `The sun will come up tomorrow, 10 bid that at 20` gives the bid 0.10, no ask and the proposition `The sun will come up tomorrow ... at 20`. |
| Examples.SunThatAgain | bid.jsx:3-35 | That proposition, read again, gives the ask 0.20. |
| Examples.NoBoundaryBeforeDigits | bid.jsx:4 | `foo 123 bid` gives the bid 0.23 and the proposition `foo 1`: nothing requires a word boundary before the digits, so the lazy prefix stops after `foo 1`. |
| Examples.FooShape | bid.jsx:4 | The match of `foo 123 bid` has the five-character prefix `foo 1` and the single sub-clause `23 bid`. |

## Left out

- React rendering (`OrRow`, `Weak`, the JSX of `App`, `ReactDOM.render`) is user interface. This includes the check at bid.jsx:187 that hides the panel when the proposition is empty.
- The query string and history handling (`useQueryString`, `getQSValue`, `parseQS`, `buildQS`, `popstate`) and `localStorage` are browser I/O.
- `DECODERS`/`ENCODERS` wrap `Date`, `JSON` and `Number`, which are not part of this model.
- `useMemo` caching is a performance detail.
- `formatCurrency` and the `toFixed` rounding of `percent` are floating-point formatting. `Payoff.Percentage` stops at `x*100`, before the rounding.
- Payoff.PercentageOfFraction: holds over exact reals only. In IEEE doubles `7/100*100` is not exactly 7 (nor is `29/100*100` exactly 29), and it is the `toFixed(0)` at bid.jsx:158 that turns such values back into whole percentages.
- Payoff.OddsAddUp: states the sum before `toFixed(0)`. The two rounded strings the page shows are not covered.
- Payoff.Regardless: computed over exact reals, not IEEE doubles. `amount*p` and `amount*(1-p)` of a double can differ from the exact values in the last bit, so their sum is exactly the stake only in this model.
- Extract.Fraction: `parseFloat(n)/100.0` is an exact real here, whereas the page computes the nearest double (0.1 is not exactly one tenth).
- Strings are sequences of characters. JavaScript's UTF-16 code units are not modelled: the pattern has no `u` flag, so only characters outside the Basic Multilingual Plane would differ, and none of them is a digit, a space, a comma or a letter of the keywords.
- Reading a proposition again is not proved to give no bet in general, because it need not: a sub-clause left in the suffix is read again. `Reparse.ThirdSubClauseIsReadAgain` proves this for `x, u bid at v at w`, and `Reparse.ThatSubClauseIsReadAgain` for `x, u bid that at v`. `Reparse.UsualFormsReparse` proves the no-bet result for the usual forms after a trimmed sentence.

=== FILE: examples.dfy ===
/** The example statements the page offers, worked through the model: each
    is a sentence in which no reading starts, a comma and a clause of one of
    the usual forms. */
module Examples {
  import opened Wrappers
  import opened Text
  import opened SubClause
  import opened Statement
  import opened Extract
  import opened RoundTrip
  import opened Reparse
  import opened Scan

  const Sun: string := "The sun will come up tomorrow"

  lemma TheSunWill()
    ensures PlainText("The") && PlainText(" sun") && PlainText(" will")
  {
    assert |"The"| == 3 && Plain("The", 0, 3);
    assert |" sun"| == 4 && Plain(" sun", 0, 4);
    assert |" will"| == 5 && Plain(" will", 0, 5);
  }

  lemma ComeUp()
    ensures PlainText(" come") && PlainText(" up")
  {
    assert |" come"| == 5 && Plain(" come", 0, 5);
    assert |" up"| == 3 && Plain(" up", 0, 3);
  }

  /** The two nine-character words, checked position by position. */
  lemma TomorrowAndCollapse()
    ensures PlainText(" tomorrow") && PlainText(" collapse")
  {
    assert |" tomorrow"| == 9 && |" collapse"| == 9;
    assert Plain(" tomorrow", 0, 9);
    assert Plain(" collapse", 0, 9);
  }

  lemma SunTrimmed()
    ensures Trim(Sun) == Sun
  {
    assert Trimmed(Sun);
  }

  lemma SunSpelled()
    ensures Sun == "The" + " sun" + " will" + " come" + " up" + " tomorrow"
  {
  }

  lemma SunIsSentence()
    ensures Sentence(Sun)
  {
    TheSunWill();
    ComeUp();
    TomorrowAndCollapse();
    PlainTextAppend("The", " sun");
    PlainTextAppend("The" + " sun", " will");
    PlainTextAppend("The" + " sun" + " will", " come");
    PlainTextAppend("The" + " sun" + " will" + " come", " up");
    PlainTextAppend("The" + " sun" + " will" + " come" + " up", " tomorrow");
    SunSpelled();
    PlainIsSentence(Sun);
  }

  lemma SunStatement()
    ensures Sun + ", " + (Numeral(10) + " bid") == "The sun will come up tomorrow, 10 bid"
  {
    assert Numeral(10) == "10";
  }

  /** "The sun will come up tomorrow, 10 bid": bid 0.10, no ask, and the
      sentence as the proposition. */
  lemma SunExample()
    ensures ExtractBet("The sun will come up tomorrow, 10 bid")
         == Bet(Some(0.10), None, Some("The sun will come up tomorrow"))
  {
    SunIsSentence();
    BidRoundTrip(Sun, 10);
    SunStatement();
    SunTrimmed();
  }

  const Coin: string := "This coin toss will come up heads"

  lemma ThisCoinToss()
    ensures PlainText("This") && PlainText(" coin") && PlainText(" toss")
  {
    assert |"This"| == 4 && Plain("This", 0, 4);
    assert |" coin"| == 5 && Plain(" coin", 0, 5);
    assert |" toss"| == 5 && Plain(" toss", 0, 5);
  }

  lemma WillComeUp()
    ensures PlainText(" will") && PlainText(" come") && PlainText(" up")
  {
    assert |" will"| == 5 && Plain(" will", 0, 5);
    assert |" come"| == 5 && Plain(" come", 0, 5);
    assert |" up"| == 3 && Plain(" up", 0, 3);
  }

  lemma Heads()
    ensures PlainText(" heads")
  {
    assert |" heads"| == 6;
    assert Plain(" heads", 0, 6);
  }

  lemma CoinSpelled()
    ensures Coin == "This" + " coin" + " toss" + " will" + " come" + " up" + " heads"
  {
  }

  lemma CoinIsSentence()
    ensures Sentence(Coin)
  {
    ThisCoinToss();
    WillComeUp();
    Heads();
    PlainTextAppend("This", " coin");
    PlainTextAppend("This" + " coin", " toss");
    PlainTextAppend("This" + " coin" + " toss", " will");
    PlainTextAppend("This" + " coin" + " toss" + " will", " come");
    PlainTextAppend("This" + " coin" + " toss" + " will" + " come", " up");
    PlainTextAppend("This" + " coin" + " toss" + " will" + " come" + " up", " heads");
    CoinSpelled();
    PlainIsSentence(Coin);
  }

  lemma CoinStatement()
    ensures Coin + ", " + (Numeral(50) + " bid " + ("at " + Numeral(50)))
         == "This coin toss will come up heads, 50 bid at 50"
  {
    assert Numeral(50) == "50";
  }

  lemma CoinTrimmed()
    ensures Trim(Coin) == Coin
  {
    assert Trimmed(Coin);
  }

  /** "This coin toss will come up heads, 50 bid at 50": bid 0.5, ask 0.5,
      and the sentence as the proposition. */
  lemma CoinExample()
    ensures ExtractBet("This coin toss will come up heads, 50 bid at 50")
         == Bet(Some(0.5), Some(0.5), Some("This coin toss will come up heads"))
  {
    CoinIsSentence();
    BidAskRoundTrip(Coin, 50, 50);
    CoinStatement();
    CoinTrimmed();
  }

  const Desk: string := "Your desk is going to collapse"

  lemma YourDeskIs()
    ensures PlainText("Your") && PlainText(" desk") && PlainText(" is")
  {
    assert |"Your"| == 4 && Plain("Your", 0, 4);
    assert |" desk"| == 5 && Plain(" desk", 0, 5);
    assert |" is"| == 3 && Plain(" is", 0, 3);
  }

  lemma GoingTo()
    ensures PlainText(" going") && PlainText(" to")
  {
    assert |" going"| == 6 && Plain(" going", 0, 6);
    assert |" to"| == 3 && Plain(" to", 0, 3);
  }

  lemma DeskSpelled()
    ensures Desk == "Your" + " desk" + " is" + " going" + " to" + " collapse"
  {
  }

  lemma DeskIsSentence()
    ensures Sentence(Desk)
  {
    YourDeskIs();
    GoingTo();
    TomorrowAndCollapse();
    PlainTextAppend("Your", " desk");
    PlainTextAppend("Your" + " desk", " is");
    PlainTextAppend("Your" + " desk" + " is", " going");
    PlainTextAppend("Your" + " desk" + " is" + " going", " to");
    PlainTextAppend("Your" + " desk" + " is" + " going" + " to", " collapse");
    DeskSpelled();
    PlainIsSentence(Desk);
  }

  lemma DeskStatement()
    ensures Desk + ", " + ("at " + Numeral(10)) == "Your desk is going to collapse, at 10"
  {
    assert Numeral(10) == "10";
  }

  lemma DeskTrimmed()
    ensures Trim(Desk) == Desk
  {
    assert Trimmed(Desk);
  }

  /** "Your desk is going to collapse, at 10": no bid, ask 0.10, and the
      sentence as the proposition. */
  lemma DeskExample()
    ensures ExtractBet("Your desk is going to collapse, at 10")
         == Bet(None, Some(0.10), Some("Your desk is going to collapse"))
  {
    DeskIsSentence();
    AskRoundTrip(Desk, 10);
    DeskStatement();
    DeskTrimmed();
  }

  const Karen: string := "Karen will work past 10pm today"

  lemma KarenWillWorkPast()
    ensures PlainText("Karen") && PlainText(" will") && PlainText(" work") && PlainText(" past")
  {
    assert |" will"| == 5 && Plain(" will", 0, 5);
    assert |" work"| == 5 && Plain(" work", 0, 5);
    assert |" past"| == 5 && Plain(" past", 0, 5);
    assert |"Karen"| == 5 && Plain("Karen", 0, 5);
  }

  /** ` 10pm today` holds digits, but they are followed by neither a space
      nor `bid`, so no reading starts there. */
  lemma TenPmToday()
    ensures Sentence(" 10pm today")
  {
    var y := " 10pm today";
    assert |y| == 11;
    assert Plain(y, 3, 11);
    PlainHasNoReading(y, 3, 11);
    assert Plain(y, 0, 1);
    PlainHasNoReading(y, 0, 1);
    NoReadingAtNumber(y, 1);
    NoReadingAtNumber(y, 2);
  }

  lemma KarenSpelled()
    ensures Karen == "Karen" + " will" + " work" + " past" + " 10pm today"
  {
  }

  /** The sentence has `10` in it, yet no reading starts anywhere in it. */
  lemma KarenIsSentence()
    ensures Sentence(Karen)
  {
    KarenWillWorkPast();
    PlainTextAppend("Karen", " will");
    PlainTextAppend("Karen" + " will", " work");
    PlainTextAppend("Karen" + " will" + " work", " past");
    TenPmToday();
    SentenceAfterPlain("Karen" + " will" + " work" + " past", " 10pm today");
    KarenSpelled();
  }

  lemma KarenStatement()
    ensures Karen + ", " + (Numeral(70) + " bid " + ("at " + Numeral(90)))
         == "Karen will work past 10pm today, 70 bid at 90"
  {
    assert Numeral(70) == "70" && Numeral(90) == "90";
  }

  lemma KarenTrimmed()
    ensures Trim(Karen) == Karen
  {
    assert Trimmed(Karen);
  }

  /** "Karen will work past 10pm today, 70 bid at 90": bid 0.70, ask 0.90,
      and the sentence, `10pm` and all, as the proposition. */
  lemma KarenExample()
    ensures ExtractBet("Karen will work past 10pm today, 70 bid at 90")
         == Bet(Some(0.70), Some(0.90), Some("Karen will work past 10pm today"))
  {
    KarenIsSentence();
    BidAskRoundTrip(Karen, 70, 90);
    KarenStatement();
    KarenTrimmed();
  }

  const SaleOpening: string := "This sale will go"
  const SaleMiddle: string := " through without and yet"
  const SaleHearing: string := " we won't hear back"
  const SaleClosing: string := " from them in the next week"

  /** "This sale will go through without and yet we won't hear back from
      them in the next week", built from its four phrases. */
  const Sale: string := SaleOpening + SaleMiddle + SaleHearing + SaleClosing

  lemma ThisSaleWillGoWords()
    ensures PlainText("This") && PlainText(" sale") && PlainText(" will") && PlainText(" go")
  {
    assert |"This"| == 4 && Plain("This", 0, 4);
    assert |" sale"| == 5 && Plain(" sale", 0, 5);
    assert |" will"| == 5 && Plain(" will", 0, 5);
    assert |" go"| == 3 && Plain(" go", 0, 3);
  }

  lemma ThisSaleWillGo()
    ensures PlainText(SaleOpening)
  {
    ThisSaleWillGoWords();
    PlainTextAppend("This", " sale");
    PlainTextAppend("This" + " sale", " will");
    PlainTextAppend("This" + " sale" + " will", " go");
    assert SaleOpening == "This" + " sale" + " will" + " go";
  }

  lemma ThroughWithoutWords()
    ensures PlainText(" through") && PlainText(" without")
  {
    assert |" through"| == 8 && Plain(" through", 0, 8);
    assert |" without"| == 8 && Plain(" without", 0, 8);
  }

  lemma AndYetWords()
    ensures PlainText(" and") && PlainText(" yet")
  {
    assert |" and"| == 4 && Plain(" and", 0, 4);
    assert |" yet"| == 4 && Plain(" yet", 0, 4);
  }

  lemma ThroughWithoutAndYet()
    ensures PlainText(SaleMiddle)
  {
    ThroughWithoutWords();
    AndYetWords();
    PlainTextAppend(" through", " without");
    PlainTextAppend(" through" + " without", " and");
    PlainTextAppend(" through" + " without" + " and", " yet");
    assert SaleMiddle == " through" + " without" + " and" + " yet";
  }

  lemma WeWontHearBackWords()
    ensures PlainText(" we") && PlainText(" won't") && PlainText(" hear") && PlainText(" back")
  {
    assert |" we"| == 3 && Plain(" we", 0, 3);
    assert |" hear"| == 5 && Plain(" hear", 0, 5);
    assert |" back"| == 5 && Plain(" back", 0, 5);
    assert |" won't"| == 6 && Plain(" won't", 0, 6);
  }

  lemma WeWontHearBack()
    ensures PlainText(SaleHearing)
  {
    WeWontHearBackWords();
    PlainTextAppend(" we", " won't");
    PlainTextAppend(" we" + " won't", " hear");
    PlainTextAppend(" we" + " won't" + " hear", " back");
    assert SaleHearing == " we" + " won't" + " hear" + " back";
  }

  lemma FromThemInTheNextWeekWords()
    ensures PlainText(" from") && PlainText(" them") && PlainText(" in") && PlainText(" the") && PlainText(" next") && PlainText(" week")
  {
    assert |" from"| == 5 && Plain(" from", 0, 5);
    assert |" them"| == 5 && Plain(" them", 0, 5);
    assert |" in"| == 3 && Plain(" in", 0, 3);
    assert |" the"| == 4 && Plain(" the", 0, 4);
    assert |" next"| == 5 && Plain(" next", 0, 5);
    assert |" week"| == 5 && Plain(" week", 0, 5);
  }

  lemma FromThemInTheNextWeek()
    ensures PlainText(SaleClosing)
  {
    FromThemInTheNextWeekWords();
    PlainTextAppend(" from", " them");
    PlainTextAppend(" from" + " them", " in");
    PlainTextAppend(" from" + " them" + " in", " the");
    PlainTextAppend(" from" + " them" + " in" + " the", " next");
    PlainTextAppend(" from" + " them" + " in" + " the" + " next", " week");
    assert SaleClosing == " from" + " them" + " in" + " the" + " next" + " week";
  }

  lemma SaleIsSentence()
    ensures Sentence(Sale)
  {
    ThisSaleWillGo();
    ThroughWithoutAndYet();
    WeWontHearBack();
    FromThemInTheNextWeek();
    PlainTextAppend(SaleOpening, SaleMiddle);
    PlainTextAppend(SaleOpening + SaleMiddle, SaleHearing);
    PlainTextAppend(SaleOpening + SaleMiddle + SaleHearing, SaleClosing);
    PlainIsSentence(Sale);
  }

  lemma SaleStatement()
    ensures Sale + ", " + (Numeral(30) + " bid " + ("at " + Numeral(50))) == Sale + ", 30 bid at 50"
  {
    assert Numeral(30) == "30" && Numeral(50) == "50";
  }

  lemma SaleTrimmed()
    ensures Trim(Sale) == Sale
  {
    assert Sale[0] == SaleOpening[0];
    assert Sale[|Sale| - 1] == SaleClosing[|SaleClosing| - 1];
    assert Trimmed(Sale);
  }

  /** The sale sentence, then `, 30 bid at 50`: bid 0.30, ask 0.50, and the
      sentence as the proposition. */
  lemma SaleExample()
    ensures ExtractBet(Sale + ", 30 bid at 50") == Bet(Some(0.30), Some(0.50), Some(Sale))
  {
    SaleIsSentence();
    BidAskRoundTrip(Sale, 30, 50);
    SaleStatement();
    SaleTrimmed();
  }

  lemma SunNumerals()
    ensures IsNumeral("10") && ValueOf("10") == 10
    ensures IsNumeral("20") && ValueOf("20") == 20
    ensures IsNumeral("30") && ValueOf("30") == 30
  {
    NumeralReadsBack(10);
    NumeralReadsBack(20);
    NumeralReadsBack(30);
    assert Numeral(10) == "10" && Numeral(20) == "20" && Numeral(30) == "30";
  }

  lemma SunThreeText()
    ensures Sun + ", " + ThreeClause("10", "20", "30") == "The sun will come up tomorrow, 10 bid at 20 at 30"
    ensures Sun + Ellipsis + ("at " + "30") == "The sun will come up tomorrow ... at 30"
    ensures Sun + " ..." == "The sun will come up tomorrow ..."
  {
  }

  /** "The sun will come up tomorrow, 10 bid at 20 at 30": bid 0.10 and ask
      0.20, with `at 30` left in the proposition. */
  lemma SunThreeExample()
    ensures ExtractBet("The sun will come up tomorrow, 10 bid at 20 at 30")
         == Bet(Some(0.10), Some(0.20), Some("The sun will come up tomorrow ... at 30"))
  {
    SunIsSentence();
    SunTrimmed();
    SunNumerals();
    ThreeStatement(Sun, "10", "20", "30");
    SunThreeText();
  }

  /** That proposition, read as a statement, is the ask 0.30. */
  lemma SunThreeAgain()
    ensures ExtractBet("The sun will come up tomorrow ... at 30")
         == Bet(None, Some(0.30), Some("The sun will come up tomorrow ..."))
  {
    SunIsSentence();
    SunTrimmed();
    SunNumerals();
    EllipsisAsk(Sun, "30");
    SunThreeText();
  }

  lemma SunThatText()
    ensures Sun + ", " + ThatClause("10", "20") == "The sun will come up tomorrow, 10 bid that at 20"
    ensures Sun + Ellipsis + ("at " + "20") == "The sun will come up tomorrow ... at 20"
  {
  }

  /** "The sun will come up tomorrow, 10 bid that at 20": bid 0.10 and no
      ask, with `at 20` left in the proposition. */
  lemma SunThatExample()
    ensures ExtractBet("The sun will come up tomorrow, 10 bid that at 20")
         == Bet(Some(0.10), None, Some("The sun will come up tomorrow ... at 20"))
  {
    SunIsSentence();
    SunTrimmed();
    SunNumerals();
    ThatStatement(Sun, "10", "20");
    SunThatText();
  }

  /** That proposition, read as a statement, is the ask 0.20. */
  lemma SunThatAgain()
    ensures ExtractBet("The sun will come up tomorrow ... at 20")
         == Bet(None, Some(0.20), Some("The sun will come up tomorrow ..."))
  {
    SunIsSentence();
    SunTrimmed();
    SunNumerals();
    EllipsisAsk(Sun, "20");
    SunThatText();
    SunThreeText();
  }

  /** `s` is `foo 123 bid`, character by character. */
  predicate IsFoo(s: string) {
    && |s| == 11
    && s[0] == 'f' && s[1] == 'o' && s[2] == 'o' && s[3] == ' '
    && s[4] == '1' && s[5] == '2' && s[6] == '3' && s[7] == ' '
    && s[8] == 'b' && s[9] == 'i' && s[10] == 'd'
  }

  /** The lazy search moves past a prefix length after which no sub-clause
      starts. */
  lemma SkipPrefix(s: string, k: nat)
    requires k <= |s| && MatchSubClause(s, GroupStartAt(s, k)) == None
    ensures MatchFrom(s, k) == MatchFrom(s, k + 1)
  {
    assert MatchGroup(s, GroupStartAt(s, k)) == None;
  }

  /** Neither `12` nor `1` is followed by ` bid`: after two digits comes a
      third, after one digit a second. */
  lemma FooNoSubClauseAt4(s: string)
    requires IsFoo(s)
    ensures MatchSubClause(s, 4) == None
  {
    assert SpaceRun(s, 6) == 0 && SpaceRun(s, 5) == 0;
    assert MatchNumBid(s, 4) == None;
  }

  /** No prefix shorter than `foo` is followed by a sub-clause. */
  lemma FooSkipsWord(s: string)
    requires IsFoo(s)
    ensures MatchFrom(s, 0) == MatchFrom(s, 3)
  {
    assert GroupStartAt(s, 0) == 0 && GroupStartAt(s, 1) == 1 && GroupStartAt(s, 2) == 2;
    NoSubClauseAtLetter(s, 0);
    NoSubClauseAtLetter(s, 1);
    NoSubClauseAtLetter(s, 2);
    SkipPrefix(s, 0);
    SkipPrefix(s, 1);
    SkipPrefix(s, 2);
  }

  /** Nor are `foo` and `foo ` followed by one: the group would start at
      `123`. */
  lemma FooSkipsSpace(s: string)
    requires IsFoo(s)
    ensures MatchFrom(s, 3) == MatchFrom(s, 5)
  {
    assert SpaceRun(s, 3) == 1 && SpaceRun(s, 4) == 0;
    assert GroupStartAt(s, 3) == 4 && GroupStartAt(s, 4) == 4;
    FooNoSubClauseAt4(s);
    SkipPrefix(s, 3);
    SkipPrefix(s, 4);
  }

  /** After `foo 1` the two digits `23`, a space and `bid` reach the end. */
  lemma FooFromFive(s: string)
    requires IsFoo(s)
    ensures MatchFrom(s, 5) == Some(Shape(5, false, 0, Group(SubMatch(NumBid, 2, 1, 0), None), None))
  {
    assert NumBidLaidOut(s, 5, 2, 0, 23);
    NumBidRead(s, 5, 2, 0, 23);
    NothingAtEnd(s);
    assert SpaceRun(s, 5) == 0 && GroupStartAt(s, 5) == 5;
    MatchFromParts(s, 5, 5, 11, 11, SubMatch(NumBid, 2, 1, 0), None, None);
  }

  /** The match of `foo 123 bid`: the prefix `foo 1` and the bid `23 bid`. */
  lemma FooShape(s: string)
    requires IsFoo(s)
    ensures MatchStatement(s) == Some(Shape(5, false, 0, Group(SubMatch(NumBid, 2, 1, 0), None), None))
  {
    FooSkipsWord(s);
    FooSkipsSpace(s);
    FooFromFive(s);
    FooLineFree(s);
  }

  lemma FooLineFree(s: string)
    requires IsFoo(s)
    ensures LineFree(s, 0)
  {
    assert LineFree(s, 11);
    assert LineFree(s, 10) && LineFree(s, 9) && LineFree(s, 8);
    assert LineFree(s, 7) && LineFree(s, 6) && LineFree(s, 5);
    assert LineFree(s, 4) && LineFree(s, 3) && LineFree(s, 2);
    assert LineFree(s, 1);
  }

  /** The scan of `23 bid` finds the bid 23. */
  lemma FooScan(s: string)
    requires IsFoo(s)
    ensures ScanClause(s[5..]) == (Some(23), None)
  {
    var c := s[5..];
    assert NumBidLaidOut(c, 0, 2, 0, 23);
    NumBidRead(c, 0, 2, 0, 23);
    ScanSingle(c, SubMatch(NumBid, 2, 1, 0), 23);
  }

  /** The bet of `foo 123 bid`: the bid 0.23 and the proposition `foo 1`. */
  lemma FooBet(s: string)
    requires IsFoo(s)
    ensures ExtractBet(s) == Bet(Some(Fraction(23)), None, Some(s[..5]))
  {
    var sh := Shape(5, false, 0, Group(SubMatch(NumBid, 2, 1, 0), None), None);
    assert MatchStatement(s) == Some(sh) by {
      FooShape(s);
    }
    assert ScanClause(s[5..]) == (Some(23), None) by {
      FooScan(s);
    }
    assert Trim(s[..5]) == s[..5] by {
      FooPrefixTrimmed(s);
    }
    BetOfStatement(s, sh);
  }

  /** `foo 1` has no white space at either end. */
  lemma FooPrefixTrimmed(s: string)
    requires IsFoo(s)
    ensures Trimmed(s[..5])
  {
    var p := s[..5];
    assert p[0] == 'f' && p[4] == '1';
  }

  /** "foo 123 bid": nothing asks for a word boundary before the digits, so
      the lazy prefix stops at `foo 1` and the bid is 0.23. */
  lemma NoBoundaryBeforeDigits()
    ensures ExtractBet("foo 123 bid") == Bet(Some(0.23), None, Some("foo 1"))
  {
    var s := "foo 123 bid";
    assert IsFoo(s) && s[..5] == "foo 1" by {
      FooSpelled();
    }
    FooBet(s);
  }

  /** The literal spelled out. */
  lemma FooSpelled()
    ensures IsFoo("foo 123 bid") && "foo 123 bid"[..5] == "foo 1"
  {
  }
}

=== FILE: extract.dfy ===
/** `extractBet`: the whole-statement match, the scan of its clause, and the
    proposition rebuilt from the text around the clause. */
module Extract {
  import opened Wrappers
  import opened Text
  import opened SubClause
  import opened Statement
  import opened Scan

  /** `{bid, ask, proposition}`, with `null` as `None`. */
  datatype Bet = Bet(bid: Option<real>, ask: Option<real>, proposition: Option<string>)

  /** `parseFloat(digits) / 100.0`, exactly. */
  function Fraction(n: nat): (p: real)
    ensures 0.0 <= p && (n < 100 ==> p < 1.0)
    ensures p * 100.0 == n as real
  {
    n as real / 100.0
  }

  function FractionOf(o: Option<nat>): (r: Option<real>)
    ensures r.Some? <==> o.Some?
    ensures r.Some? ==> r.value == Fraction(o.value)
  {
    match o
    case None => None
    case Some(n) => Some(Fraction(n))
  }

  /** The separator put between the two halves of a sentence around an
      elided clause. */
  const Ellipsis: string := " ... "

  /** Two pieces of text, joined by the ellipsis when both are non-empty. */
  function Join(a: string, b: string): string {
    if |a| > 0 && |b| > 0 then a + Ellipsis + b else a + b
  }

  /** Joining trimmed pieces gives trimmed text, empty only when both are. */
  lemma JoinTrimmed(a: string, b: string)
    requires Trimmed(a) && Trimmed(b)
    ensures Trimmed(Join(a, b))
    ensures |Join(a, b)| == 0 <==> |a| == 0 && |b| == 0
  {
    var p := Join(a, b);
    if |a| > 0 && |b| > 0 {
      assert p[0] == a[0] && p[|p| - 1] == b[|b| - 1];
    } else if |a| > 0 {
      assert p == a;
    } else {
      assert p == b;
    }
  }

  /** `result[1].trim()` and `result[3].trim()`, joined by the ellipsis when
      both are non-empty. */
  function Proposition(prefix: string, suffix: string): (p: string)
    ensures Trimmed(p)
    ensures |p| == 0 <==> |Trim(prefix)| == 0 && |Trim(suffix)| == 0
  {
    JoinTrimmed(Trim(prefix), Trim(suffix));
    Join(Trim(prefix), Trim(suffix))
  }

  /** The proposition splits back into the trimmed prefix and the trimmed
      suffix: at the ellipsis when both are present, otherwise it is the
      one that is. */
  lemma PropositionSplits(prefix: string, suffix: string)
    ensures var p, a, b := Proposition(prefix, suffix), Trim(prefix), Trim(suffix);
      if |a| > 0 && |b| > 0 then
        && |p| == |a| + |Ellipsis| + |b|
        && p[..|a|] == a && p[|a|..|a| + |Ellipsis|] == Ellipsis && p[|a| + |Ellipsis|..] == b
      else
        p == (if |a| > 0 then a else b)
  {
    var p, a, b := Proposition(prefix, suffix), Trim(prefix), Trim(suffix);
    if |a| > 0 && |b| > 0 {
      assert p == a + Ellipsis + b;
      assert p[..|a|] == a;
      assert p[|a|..|a| + |Ellipsis|] == Ellipsis;
      assert p[|a| + |Ellipsis|..] == b;
    } else if |a| > 0 {
      assert p == a + b;
      assert b == [];
    } else {
      assert a == [];
      assert p == a + b;
    }
  }

  /** The text the outer match captures as group 2. */
  function ClauseOf(s: string, sh: Shape): string
    requires SuffixStart(sh) <= |s|
  {
    s[ClauseStart(sh)..ClauseEnd(sh)]
  }

  /** `extractBet(betString)`. */
  function ExtractBet(s: string): (b: Bet)
    ensures b.proposition.None? ==> b.bid.None? && b.ask.None?
  {
    match MatchStatement(s)
    case None => Bet(None, None, None)
    case Some(sh) =>
      var (bid, ask) := ScanClause(ClauseOf(s, sh));
      Bet(FractionOf(bid), FractionOf(ask), Some(Proposition(s[..sh.prefix], s[SuffixStart(sh)..])))
  }

  /** All three fields are `null` exactly when the statement does not have
      the shape of a bet. */
  lemma NoMatchMeansNothing(s: string)
    ensures ExtractBet(s).proposition.None? <==> forall sh :: !ShapeParses(s, sh)
    ensures ExtractBet(s).proposition.None? ==> ExtractBet(s) == Bet(None, None, None)
  {
    StatementIsFirst(s);
  }

  /** A statement with a line break is never a bet: `.` does not match it
      and there is no multi-line flag. */
  lemma LineBreakMeansNothing(s: string, k: nat)
    requires LineTerminatorAt(s, k)
    ensures ExtractBet(s) == Bet(None, None, None)
  {
  }

  /** On a match, the proposition is rebuilt from the lazily shortest prefix
      and the suffix, and each price is the last one of its side in the
      clause: later sub-clauses silently overwrite earlier ones. */
  lemma MatchedBet(s: string)
    requires MatchStatement(s).Some?
    ensures var sh := MatchStatement(s).value;
      var hs := Hits(ClauseOf(s, sh), 0);
      && ExtractBet(s).proposition == Some(Proposition(s[..sh.prefix], s[SuffixStart(sh)..]))
      && ExtractBet(s).bid == FractionOf(LastOf(hs, BidSide))
      && ExtractBet(s).ask == FractionOf(LastOf(hs, AskSide))
  {
    var sh := MatchStatement(s).value;
    ScanKeepsLast(ClauseOf(s, sh));
  }

  /** The clause's first sub-clause is still a sub-clause of the isolated
      clause text, so a matched statement always carries a price. */
  lemma MatchHasPrice(s: string)
    requires ExtractBet(s).proposition.Some?
    ensures ExtractBet(s).bid.Some? || ExtractBet(s).ask.Some?
  {
    StatementIsFirst(s);
    var sh := MatchStatement(s).value;
    var a, e := ClauseStart(sh), ClauseEnd(sh);
    var first := sh.group.first;
    assert Parses(s, a, first);
    ParsesInWindow(s, a, e, first);
    ScanFindsOne(ClauseOf(s, sh), first);
  }

  /** Every price is a whole number of hundredths below one. */
  lemma PricesAreHundredths(s: string)
    ensures ExtractBet(s).bid.Some? ==> exists n: nat :: n < 100 && ExtractBet(s).bid.value == Fraction(n)
    ensures ExtractBet(s).ask.Some? ==> exists n: nat :: n < 100 && ExtractBet(s).ask.value == Fraction(n)
  {
    if MatchStatement(s).Some? {
      var sh := MatchStatement(s).value;
      var t := ClauseOf(s, sh);
      MatchedBet(s);
      LastBelow100(Hits(t, 0), BidSide);
      LastBelow100(Hits(t, 0), AskSide);
    }
  }

  /** The last hit on a side captures fewer than a hundred. */
  lemma LastBelow100(hs: seq<Hit>, side: Side)
    requires forall k :: 0 <= k < |hs| ==> hs[k].percent < 100
    ensures LastOf(hs, side).Some? ==> LastOf(hs, side).value < 100
  {
    if LastOf(hs, side).Some? {
      var k := LastOfIsLast(hs, side);
    }
  }
}

=== FILE: payoff.dfy ===
/** The figures the page derives from a bet for a stake `amount`: the
    "regardless" payment, the "adds up to" remainder, and the percentages,
    each shown only when its price is not `null`. Prices are exact reals. */
module Payoff {
  import opened Wrappers
  import opened Extract

  /** `amount*p`: what is owed regardless of the outcome at price `p`. */
  function Regardless(amount: real, p: Option<real>): (r: Option<real>)
    ensures r.Some? <==> p.Some?
  {
    match p
    case None => None
    case Some(x) => Some(amount * x)
  }

  /** `amount*(1-p)`: what the stake and the regardless payment add up to. */
  function Remainder(amount: real, p: Option<real>): (r: Option<real>)
    ensures r.Some? <==> p.Some?
    ensures r.Some? ==> r.value == amount - Regardless(amount, p).value
  {
    match p
    case None => None
    case Some(x) => Some(amount * (1.0 - x))
  }

  /** `x*100` before `toFixed(0)`, with `null` passed through. */
  function Percentage(p: Option<real>): (r: Option<real>)
    ensures r.Some? <==> p.Some?
    ensures r.Some? ==> r.value / 100.0 == p.value
  {
    match p
    case None => None
    case Some(x) => Some(x * 100.0)
  }

  /** For a price between 0 and 1 and a non-negative stake, both payments lie
      between nothing and the stake, and together they make the stake. */
  lemma PaymentsSplitStake(amount: real, p: real)
    requires 0.0 <= amount && 0.0 <= p <= 1.0
    ensures var g, r := Regardless(amount, Some(p)).value, Remainder(amount, Some(p)).value;
      && 0.0 <= g <= amount
      && 0.0 <= r <= amount
      && g + r == amount
  {
    var g := amount * p;
    assert g <= amount * 1.0 by {
      MultiplyMonotone(amount, p, 1.0);
    }
    assert 0.0 <= g by {
      MultiplyMonotone(amount, 0.0, p);
    }
  }

  /** Multiplying by a non-negative factor keeps the order. */
  lemma MultiplyMonotone(a: real, x: real, y: real)
    requires 0.0 <= a && x <= y
    ensures a * x <= a * y
  {
    assert a * y - a * x == a * (y - x);
  }

  /** The yes and no odds for a price, before `toFixed(0)` rounds them,
      add up to a hundred percent in exact reals. */
  lemma OddsAddUp(p: real)
    ensures Percentage(Some(p)).value + Percentage(Some(1.0 - p)).value == 100.0
  {
  }

  /** In exact reals, a price of `n` hundredths times 100 is exactly `n`
      (every parsed price is such a fraction, by
      `Extract.PricesAreHundredths`). */
  lemma PercentageOfFraction(n: nat)
    ensures Percentage(Some(Fraction(n))) == Some(n as real)
  {
  }

  /** Both payments the page shows for price `p` lie between nothing and the
      stake and add up to it; nothing is shown for a `null` price. */
  predicate SplitsStake(amount: real, p: Option<real>) {
    p.Some? ==>
      var g, r := Regardless(amount, p).value, Remainder(amount, p).value;
      0.0 <= g <= amount && 0.0 <= r <= amount && g + r == amount
  }

  /** For any statement and any non-negative stake, the payments shown for
      the parsed bid and for the parsed ask split the stake. */
  lemma ParsedPricesSplitStake(s: string, amount: real)
    requires 0.0 <= amount
    ensures SplitsStake(amount, ExtractBet(s).bid)
    ensures SplitsStake(amount, ExtractBet(s).ask)
  {
    var b := ExtractBet(s);
    PricesAreHundredths(s);
    if b.bid.Some? {
      var n: nat :| n < 100 && b.bid.value == Fraction(n);
      PaymentsSplitStake(amount, Fraction(n));
    }
    if b.ask.Some? {
      var n: nat :| n < 100 && b.ask.value == Fraction(n);
      PaymentsSplitStake(amount, Fraction(n));
    }
  }
}

=== FILE: reparse.dfy ===
/** Reading back the proposition `extractBet` builds. For the usual forms
    after a trimmed sentence the proposition is that sentence and holds no
    bet; but a sub-clause left in the suffix lands in the proposition and is
    read again as a price. That happens to a third sub-clause, since the
    group takes at most two, and to one after `that`. */
module Reparse {
  import opened Wrappers
  import opened Text
  import opened SubClause
  import opened Statement
  import opened Scan
  import opened Extract
  import opened RoundTrip

  /** Text in which no sub-clause reading starts is not a bet: all three
      fields are `null`. */
  lemma UnreadIsNothing(x: string)
    requires Unread(x, |x|)
    ensures ExtractBet(x) == Bet(None, None, None)
  {
    forall sh | ShapeParses(x, sh)
      ensures false
    {
      var a := ClauseStart(sh);
      assert Parses(x, a, sh.group.first);
      LengthBounds(x, a, sh.group.first);
    }
    NoMatchMeansNothing(x);
  }

  /** The empty statement is not a bet. */
  lemma EmptyIsNothing()
    ensures ExtractBet("") == Bet(None, None, None)
  {
    UnreadIsNothing("");
  }

  /** After a trimmed sentence, the proposition of each usual form is the
      sentence, and read again it is not a bet. */
  lemma UsualFormsReparse(x: string, u: string, v: string)
    requires Sentence(x) && Trimmed(x) && IsNumeral(u) && IsNumeral(v)
    ensures ExtractBet(x + ", " + (u + " bid")).proposition == Some(x)
    ensures ExtractBet(x + ", " + ("at " + v)).proposition == Some(x)
    ensures ExtractBet(x + ", " + (u + " bid " + ("at " + v))).proposition == Some(x)
    ensures ExtractBet(x) == Bet(None, None, None)
  {
    BidStatement(x, u);
    AskStatement(x, v);
    BidAskStatement(x, u, v);
    UnreadIsNothing(x);
  }

  /** What `extractBet` makes of a statement matched with no `that`, whose
      clause ends at `e`: the proposition joins the trimmed prefix and the
      trimmed suffix, and the prices are what the scan of the clause finds. */
  lemma BetAroundClause(s: string, sh: Shape, e: nat)
    requires MatchStatement(s) == Some(sh) && sh.that == None
    requires e == ClauseEnd(sh) && e <= |s|
    ensures ExtractBet(s) == Bet(FractionOf(ScanClause(s[ClauseStart(sh)..e]).0),
                                 FractionOf(ScanClause(s[ClauseStart(sh)..e]).1),
                                 Some(Proposition(s[..sh.prefix], s[e..])))
  {
    assert SuffixStart(sh) == e;
    assert ClauseOf(s, sh) == s[ClauseStart(sh)..e];
  }

  /** The clause `u bid at v at w` after a comma. */
  function ThreeClause(u: string, v: string, w: string): string {
    u + " bid " + ("at " + v + " " + ("at " + w))
  }

  /** `u bid at v at w` has no line break. */
  lemma ThreeClauseClean(u: string, v: string, w: string)
    requires IsNumeral(u) && IsNumeral(v) && IsNumeral(w)
    ensures Clean(ThreeClause(u, v, w))
  {
    NumeralClean(u);
    NumeralClean(v);
    NumeralClean(w);
    WordsClean();
    CleanJoin("at ", w);
    CleanJoin("at ", v);
    CleanJoin("at " + v, " ");
    CleanJoin("at " + v + " ", "at " + w);
    CleanJoin(u, " bid ");
    CleanJoin(u + " bid ", "at " + v + " " + ("at " + w));
  }

  /** `u bid at v at w` starts with `u bid ` and goes on with `at v `. */
  lemma ThreeClauseText(u: string, v: string, w: string, c: string)
    requires IsNumeral(u) && IsNumeral(v) && IsNumeral(w) && c == ThreeClause(u, v, w)
    ensures Clean(c) && |c| > 0 && c[0] != ' '
    ensures NumBidLaidOut(c, 0, |u|, 1, ValueOf(u))
    ensures AtLaidOut(c, |u| + 5, |v|, 1, ValueOf(v))
  {
    var r := "at " + v + " " + ("at " + w);
    ThreeClauseClean(u, v, w);
    AtPiece(v, "at " + w);
    NumBidPiece(u, r);
    AtAfter(u + " bid ", r, 0, |v|, 1, ValueOf(v));
    assert DigitAt(c, 0);
  }

  /** The pieces of `x, u bid at v at w`: the sentence, the clause up to
      `e`, and the suffix `at w`. */
  lemma ThreeSlices(x: string, u: string, v: string, w: string, s: string, k: nat, e: nat)
    requires s == x + ", " + ThreeClause(u, v, w)
    requires k == |x| && e == k + 2 + (|u| + 5) + (|v| + 4)
    ensures e < |s| && s[..k] == x && s[e] == 'a'
    ensures s[k + 2..e] == u + " bid " + ("at " + v + " ")
    ensures s[e..] == "at " + w
  {
    var clause := u + " bid " + ("at " + v + " ");
    var tail := "at " + w;
    assert s == x + ", " + clause + tail;
  }

  /** In `x, u bid at v at w` the group reads `u bid ` and then `at v `,
      and ends where `at w` begins. */
  lemma ThreeGroup(x: string, u: string, v: string, w: string, s: string)
    requires IsNumeral(u) && IsNumeral(v) && IsNumeral(w)
    requires s == x + ", " + ThreeClause(u, v, w)
    ensures var k := |x|; var j := k + 2 + (|u| + 5);
      GroupReads(s, k + 2, j, j + (|v| + 4), SubMatch(NumBid, |u|, 1, 1), Some(SubMatch(At, |v|, 1, 1)))
  {
    var k := |x|;
    var j := k + 2 + (|u| + 5);
    var e := j + (|v| + 4);
    ThreeReads(x, u, v, w, s);
    assert e < |s| && s[e] == 'a' by {
      ThreeSlices(x, u, v, w, s, k, e);
    }
  }

  /** The two sub-clauses the group of `x, u bid at v at w` reads. */
  lemma ThreeReads(x: string, u: string, v: string, w: string, s: string)
    requires IsNumeral(u) && IsNumeral(v) && IsNumeral(w)
    requires s == x + ", " + ThreeClause(u, v, w)
    ensures MatchSubClause(s, |x| + 2) == Some(SubMatch(NumBid, |u|, 1, 1))
    ensures MatchSubClause(s, |x| + 2 + (|u| + 5)) == Some(SubMatch(At, |v|, 1, 1))
  {
    var c, k := ThreeClause(u, v, w), |x|;
    ThreeClauseText(u, v, w, c);
    assert MatchSubClause(s, k + 2) == Some(SubMatch(NumBid, |u|, 1, 1)) by {
      NumBidAfter(x + ", ", c, 0, |u|, 1, ValueOf(u));
      NumBidRead(s, k + 2, |u|, 1, ValueOf(u));
    }
    AtAfter(x + ", ", c, |u| + 5, |v|, 1, ValueOf(v));
    AtRead(s, k + 2 + (|u| + 5), |v|, 1, ValueOf(v));
  }

  /** `x, u bid at v at w`: the group takes `u bid ` and `at v `, no `that`
      follows, and `at w` is the suffix. */
  lemma ThreeShape(x: string, u: string, v: string, w: string, s: string)
    requires Sentence(x) && IsNumeral(u) && IsNumeral(v) && IsNumeral(w)
    requires s == x + ", " + ThreeClause(u, v, w)
    ensures MatchStatement(s) == Some(Shape(|x|, true, 1,
      Group(SubMatch(NumBid, |u|, 1, 1), Some(SubMatch(At, |v|, 1, 1))), None))
  {
    var c, k := ThreeClause(u, v, w), |x|;
    var j := k + 2 + (|u| + 5);
    ThreeClauseText(u, v, w, c);
    CommaSentence(x, c, s);
    ThreeGroup(x, u, v, w, s);
    SentenceThenGroup(s, k, k + 2, j, j + (|v| + 4), SubMatch(NumBid, |u|, 1, 1), Some(SubMatch(At, |v|, 1, 1)));
  }

  /** The scan of `u bid at v ` finds the bid, then the ask. */
  lemma ThreeScan(u: string, v: string, c: string)
    requires IsNumeral(u) && IsNumeral(v) && c == u + " bid " + ("at " + v + " ")
    ensures ScanClause(c) == (Some(ValueOf(u)), Some(ValueOf(v)))
  {
    var r := "at " + v + " ";
    var m1, m2 := SubMatch(NumBid, |u|, 1, 1), SubMatch(At, |v|, 1, 1);
    AtPiece(v, []);
    assert r + [] == r;
    NumBidPiece(u, r);
    AtAfter(u + " bid ", r, 0, |v|, 1, ValueOf(v));
    NumBidRead(c, 0, |u|, 1, ValueOf(u));
    AtRead(c, |u| + 5, |v|, 1, ValueOf(v));
    ScanBidThenAsk(c, m1, ValueOf(u), m2, ValueOf(v));
  }

  /** `at w` has no line break, starts with `a` and ends in a digit. */
  lemma TailText(w: string)
    requires IsNumeral(w)
    ensures var tail := "at " + w;
      && Clean(tail) && |tail| > 0 && tail[0] == 'a' && DigitAt(tail, |tail| - 1)
      && AtLaidOut(tail, 0, |w|, 0, ValueOf(w))
  {
    NumeralClean(w);
    WordsClean();
    CleanJoin("at ", w);
    AtEndPiece(w);
  }

  /** A non-empty trimmed prefix and the suffix `at w` make the
      proposition `x ... at w`. */
  lemma ProposeAround(x: string, tail: string)
    requires Trimmed(x) && |x| > 0 && |tail| > 0 && tail[0] == 'a' && DigitAt(tail, |tail| - 1)
    ensures Proposition(x, tail) == x + Ellipsis + tail
  {
    assert Trimmed(tail);
  }

  /** `x, u bid at v at w` gives the bid `u/100` and the ask `v/100`, and
      the proposition `x ... at w`: the third sub-clause is not part of the
      clause but of the proposition. */
  lemma ThreeStatement(x: string, u: string, v: string, w: string)
    requires Sentence(x) && Trimmed(x) && |x| > 0
    requires IsNumeral(u) && IsNumeral(v) && IsNumeral(w)
    ensures ExtractBet(x + ", " + ThreeClause(u, v, w))
         == Bet(Some(Fraction(ValueOf(u))), Some(Fraction(ValueOf(v))), Some(x + Ellipsis + ("at " + w)))
  {
    ThreeBet(x, u, v, w, x + ", " + ThreeClause(u, v, w), "at " + w);
  }

  lemma ThreeBet(x: string, u: string, v: string, w: string, s: string, tail: string)
    requires Sentence(x) && Trimmed(x) && |x| > 0
    requires IsNumeral(u) && IsNumeral(v) && IsNumeral(w)
    requires s == x + ", " + ThreeClause(u, v, w) && tail == "at " + w
    ensures ExtractBet(s) == Bet(Some(Fraction(ValueOf(u))), Some(Fraction(ValueOf(v))), Some(x + Ellipsis + tail))
  {
    var k := |x|;
    var e := k + 2 + (|u| + 5) + (|v| + 4);
    var sh := Shape(k, true, 1, Group(SubMatch(NumBid, |u|, 1, 1), Some(SubMatch(At, |v|, 1, 1))), None);
    ThreeShape(x, u, v, w, s);
    ThreeSlices(x, u, v, w, s, k, e);
    BetAroundClause(s, sh, e);
    ThreeScan(u, v, s[k + 2..e]);
    TailText(w);
    ProposeAround(x, tail);
  }

  /** A reading that starts inside `x` in `x ... tail` stops before the
      first dot, which is no reading character; if it took the space before
      the dots, it did so as a trailing space, and without it it is a
      reading of `x` alone. */
  lemma ReadingBeforeEllipsis(x: string, tail: string, p: string, q: nat, m: SubMatch)
    requires p == x + Ellipsis + tail && q < |x| && Parses(p, q, m)
    ensures exists r :: Parses(x, q, r)
  {
    var k := |x|;
    ReadingChars(p, q, m);
    assert p[k] == ' ' && !ReadingChar(p[k + 1]);
    assert q + Length(m) <= k + 1;
    assert p[..k] == x;
    if q + Length(m) <= k {
      ParsesInPrefix(p, k, q, m);
      assert Parses(x, q, m);
    } else {
      ChopTrail(p, q, m, k);
      assert Parses(x, q, m.(trail := m.trail - 1));
    }
  }

  /** Putting ` ... tail` after a sentence starts no reading in it or in
      the dots. */
  lemma UnreadBeforeEllipsis(x: string, tail: string, p: string)
    requires Unread(x, |x|) && p == x + Ellipsis + tail
    ensures Unread(p, |x| + 4)
  {
    forall q: nat, m | q < |x| + 4 && Parses(p, q, m)
      ensures false
    {
      DotsStartNothing(x, tail, p, q);
      StartsWithKeywordOrDigit(p, q, m);
      ReadingBeforeEllipsis(x, tail, p, q, m);
    }
  }

  /** The space and the dots after `x` hold neither a digit nor `at` nor
      `bid`. */
  lemma DotsStartNothing(x: string, tail: string, p: string, q: nat)
    requires p == x + Ellipsis + tail
    ensures |x| <= q < |x| + 4 ==> !DigitAt(p, q) && !AtWordAt(p, q) && !BidWordAt(p, q)
  {
    if |x| <= q < |x| + 4 {
      assert p[q] == Ellipsis[q - |x|];
    }
  }

  /** The statement `x ... tail` up to the clause: no line break, no
      reading starts in the first `|x| + 4` characters, which end in a dot,
      and one space leads into `tail`. */
  lemma EllipsisText(x: string, tail: string, p: string)
    requires Sentence(x) && |x| > 0 && p == x + Ellipsis + tail
    requires Clean(tail) && |tail| > 0 && tail[0] == 'a'
    ensures LeadsInto(p, |x| + 4, |x| + 5) && !CommaAt(p, |x| + 4) && LeadAt(p, |x| + 4) == 1
  {
    var y := Ellipsis + tail;
    assert Clean(Ellipsis);
    CleanJoin(Ellipsis, tail);
    LineFreeAppend(x, y);
    assert p == x + y;
    UnreadBeforeEllipsis(x, tail, p);
    var k := |x| + 4;
    assert p[k - 1] == '.' && p[k] == ' ' && p[k + 1] == 'a';
    assert SpaceRun(p, k) == 1;
  }

  /** The pieces of `x ... tail`. */
  lemma EllipsisSlices(x: string, tail: string, p: string)
    requires p == x + Ellipsis + tail
    ensures p[..|x| + 4] == x + " ..." && p[|x| + 5..] == tail
  {
  }

  /** `x ... at w`: the prefix `x ...`, one space, and the sub-clause
      `at w` to the end. */
  lemma EllipsisShape(x: string, w: string, p: string)
    requires Sentence(x) && |x| > 0 && IsNumeral(w)
    requires p == x + Ellipsis + ("at " + w)
    ensures MatchStatement(p) == Some(Shape(|x| + 4, false, 1, Group(SubMatch(At, |w|, 1, 0), None), None))
  {
    var tail := "at " + w;
    var k := |x| + 4;
    TailText(w);
    EllipsisText(x, tail, p);
    AtAfter(x + Ellipsis, tail, 0, |w|, 0, ValueOf(w));
    AtRead(p, k + 1, |w|, 0, ValueOf(w));
    NothingAtEnd(p);
    SentenceThenGroup(p, k, k + 1, |p|, |p|, SubMatch(At, |w|, 1, 0), None);
  }

  /** `x ... at w`, as a statement of its own, is the ask `w/100` with the
      proposition `x ...`. */
  lemma EllipsisAsk(x: string, w: string)
    requires Sentence(x) && Trimmed(x) && |x| > 0 && IsNumeral(w)
    ensures ExtractBet(x + Ellipsis + ("at " + w)) == Bet(None, Some(Fraction(ValueOf(w))), Some(x + " ..."))
  {
    var tail := "at " + w;
    var p := x + Ellipsis + tail;
    var m := SubMatch(At, |w|, 1, 0);
    TailText(w);
    EllipsisShape(x, w, p);
    EllipsisBet(x, tail, p, Shape(|x| + 4, false, 1, Group(m, None), None));
    AtRead(tail, 0, |w|, 0, ValueOf(w));
    ScanSingle(tail, m, ValueOf(w));
  }

  /** The bet `x ... tail` makes when `tail` is its whole clause. */
  lemma EllipsisBet(x: string, tail: string, p: string, sh: Shape)
    requires Trimmed(x) && |x| > 0 && p == x + Ellipsis + tail
    requires MatchStatement(p) == Some(sh) && sh.prefix == |x| + 4
    requires sh.that == None && ClauseStart(sh) == |x| + 5 && ClauseEnd(sh) == |p|
    ensures ExtractBet(p) == Bet(FractionOf(ScanClause(tail).0), FractionOf(ScanClause(tail).1), Some(x + " ..."))
  {
    BetOfStatement(p, sh);
    EllipsisSlices(x, tail, p);
    assert Trimmed(x + " ...");
  }

  /** Reading the proposition again is not idempotent: from
      `x, u bid at v at w` it gives the ask `w/100`, although the statement
      itself had the ask `v/100`. */
  lemma ThirdSubClauseIsReadAgain(x: string, u: string, v: string, w: string)
    requires Sentence(x) && Trimmed(x) && |x| > 0
    requires IsNumeral(u) && IsNumeral(v) && IsNumeral(w)
    ensures var first := ExtractBet(x + ", " + ThreeClause(u, v, w));
      && first.ask == Some(Fraction(ValueOf(v)))
      && first.proposition == Some(x + Ellipsis + ("at " + w))
      && ExtractBet(first.proposition.value) == Bet(None, Some(Fraction(ValueOf(w))), Some(x + " ..."))
  {
    ThreeStatement(x, u, v, w);
    EllipsisAsk(x, w);
  }

  /** The clause `u bid that at v` after a comma. */
  function ThatClause(u: string, v: string): string {
    u + " bid " + ("that " + ("at " + v))
  }

  /** `u bid that at v` has no line break, starts with `u bid ` and goes on
      with `that `, then `a`. */
  lemma ThatClauseText(u: string, v: string, c: string)
    requires IsNumeral(u) && IsNumeral(v) && c == ThatClause(u, v)
    ensures Clean(c) && |c| > 0 && c[0] != ' '
    ensures NumBidLaidOut(c, 0, |u|, 1, ValueOf(u))
    ensures |u| + 10 < |c| && ThatWordAt(c, |u| + 5) && c[|u| + 9] == ' ' && c[|u| + 10] == 'a'
  {
    var d, r := |u|, "that " + ("at " + v);
    NumeralClean(u);
    NumeralClean(v);
    WordsClean();
    assert Clean("that ");
    CleanJoin("at ", v);
    CleanJoin("that ", "at " + v);
    CleanJoin(u, " bid ");
    CleanJoin(u + " bid ", r);
    NumBidPiece(u, r);
    assert DigitAt(c, 0);
    assert c[d + 5..] == r;
  }

  /** `u bid ` alone, as the clause the scan sees, is the bid `u`. */
  lemma BidClauseScan(u: string, c: string)
    requires IsNumeral(u) && c == u + " bid "
    ensures ScanClause(c) == (Some(ValueOf(u)), None)
  {
    var d := |u|;
    var m := SubMatch(NumBid, d, 1, 1);
    DigitsBefore(u, " bid ", 0, d);
    assert c[d] == ' ' && c[d + 1] == 'b' && c[d + 2] == 'i' && c[d + 3] == 'd' && c[d + 4] == ' ';
    assert NumBidLaidOut(c, 0, d, 1, ValueOf(u));
    NumBidRead(c, 0, d, 1, ValueOf(u));
    ScanSingle(c, m, ValueOf(u));
  }

  /** In `x, u bid that at v` the group reads `u bid ` alone, since no
      sub-clause starts at `that`, and `that` is then taken with its one
      space. */
  lemma ThatParts(x: string, u: string, v: string, s: string)
    requires IsNumeral(u) && IsNumeral(v) && s == x + ", " + ThatClause(u, v)
    ensures var j := |x| + 2 + (|u| + 5);
      && MatchSubClause(s, |x| + 2) == Some(SubMatch(NumBid, |u|, 1, 1))
      && j <= |s| && MatchSubClause(s, j) == None && MatchThat(s, j) == Some(1)
  {
    ThatFirstRead(x, u, v, s);
    ThatAfterBid(x, u, v, s);
  }

  lemma ThatFirstRead(x: string, u: string, v: string, s: string)
    requires IsNumeral(u) && IsNumeral(v) && s == x + ", " + ThatClause(u, v)
    ensures MatchSubClause(s, |x| + 2) == Some(SubMatch(NumBid, |u|, 1, 1))
  {
    var c := ThatClause(u, v);
    ThatClauseText(u, v, c);
    NumBidAfter(x + ", ", c, 0, |u|, 1, ValueOf(u));
    NumBidRead(s, |x| + 2, |u|, 1, ValueOf(u));
  }

  lemma ThatAfterBid(x: string, u: string, v: string, s: string)
    requires IsNumeral(u) && IsNumeral(v) && s == x + ", " + ThatClause(u, v)
    ensures var j := |x| + 2 + (|u| + 5);
      j <= |s| && MatchSubClause(s, j) == None && MatchThat(s, j) == Some(1)
  {
    var c := ThatClause(u, v);
    var j, o := |x| + 2 + (|u| + 5), |u| + 5;
    ThatClauseText(u, v, c);
    assert ThatWordAt(s, j) && s[j] == 't' && s[j + 4] == ' ' && s[j + 5] == 'a' by {
      assert s == (x + ", ") + c;
      assert s[j] == c[o] && s[j + 1] == c[o + 1] && s[j + 2] == c[o + 2] && s[j + 3] == c[o + 3];
      assert s[j + 4] == c[o + 4] && s[j + 5] == c[o + 5];
    }
    NoSubClauseAtLetter(s, j);
    assert SpaceRun(s, j + 4) == 1;
  }

  /** `x, u bid that at v`: the group takes `u bid `, `that ` follows it,
      and `at v` is the suffix. */
  lemma ThatShape(x: string, u: string, v: string, s: string)
    requires Sentence(x) && IsNumeral(u) && IsNumeral(v)
    requires s == x + ", " + ThatClause(u, v)
    ensures MatchStatement(s) == Some(Shape(|x|, true, 1, Group(SubMatch(NumBid, |u|, 1, 1), None), Some(1)))
  {
    var c, k := ThatClause(u, v), |x|;
    var j := k + 2 + (|u| + 5);
    ThatClauseText(u, v, c);
    CommaSentence(x, c, s);
    ThatParts(x, u, v, s);
    PlainPrefix(s, k);
    MatchFromParts(s, k, k + 2, j, j, SubMatch(NumBid, |u|, 1, 1), None, Some(1));
  }

  /** The pieces of `x, u bid that at v`: the sentence, the clause `u bid `
      and, after `that `, the suffix `at v`. */
  lemma ThatSlices(x: string, u: string, v: string, s: string, k: nat, j: nat)
    requires s == x + ", " + ThatClause(u, v)
    requires k == |x| && j == k + 2 + (|u| + 5)
    ensures j + 5 <= |s| && s[..k] == x && s[k + 2..j] == u + " bid " && s[j + 5..] == "at " + v
  {
    assert s == x + ", " + (u + " bid ") + "that " + ("at " + v);
  }

  /** What `extractBet` makes of `x, u bid that at v`, before the scan and
      the join are worked out: the clause is `u bid ` and the suffix `at v`. */
  lemma ThatPieces(x: string, u: string, v: string, s: string)
    requires Sentence(x) && IsNumeral(u) && IsNumeral(v)
    requires s == x + ", " + ThatClause(u, v)
    ensures ExtractBet(s) == Bet(FractionOf(ScanClause(u + " bid ").0), FractionOf(ScanClause(u + " bid ").1),
                                 Some(Proposition(x, "at " + v)))
  {
    var k := |x|;
    var j := k + 2 + (|u| + 5);
    var sh := Shape(k, true, 1, Group(SubMatch(NumBid, |u|, 1, 1), None), Some(1));
    ThatShape(x, u, v, s);
    assert ClauseOf(s, sh) == u + " bid " && s[..k] == x && s[SuffixStart(sh)..] == "at " + v by {
      ThatSlices(x, u, v, s, k, j);
      assert SuffixStart(sh) == j + 5;
    }
  }

  lemma ThatBet(x: string, u: string, v: string, s: string, tail: string)
    requires Sentence(x) && Trimmed(x) && |x| > 0 && IsNumeral(u) && IsNumeral(v)
    requires s == x + ", " + ThatClause(u, v) && tail == "at " + v
    ensures ExtractBet(s) == Bet(Some(Fraction(ValueOf(u))), None, Some(x + Ellipsis + tail))
  {
    ThatPieces(x, u, v, s);
    BidClauseScan(u, u + " bid ");
    TailText(v);
    ProposeAround(x, tail);
  }

  /** `x, u bid that at v` gives the bid `u/100` and no ask: `that` closes
      the clause, and `at v` lands in the proposition `x ... at v`. */
  lemma ThatStatement(x: string, u: string, v: string)
    requires Sentence(x) && Trimmed(x) && |x| > 0 && IsNumeral(u) && IsNumeral(v)
    ensures ExtractBet(x + ", " + ThatClause(u, v))
         == Bet(Some(Fraction(ValueOf(u))), None, Some(x + Ellipsis + ("at " + v)))
  {
    ThatBet(x, u, v, x + ", " + ThatClause(u, v), "at " + v);
  }

  /** Reading the proposition of `x, u bid that at v` again yields the ask
      `v/100`, which the statement itself did not have. */
  lemma ThatSubClauseIsReadAgain(x: string, u: string, v: string)
    requires Sentence(x) && Trimmed(x) && |x| > 0 && IsNumeral(u) && IsNumeral(v)
    ensures var first := ExtractBet(x + ", " + ThatClause(u, v));
      && first.ask == None
      && first.proposition == Some(x + Ellipsis + ("at " + v))
      && ExtractBet(first.proposition.value) == Bet(None, Some(Fraction(ValueOf(v))), Some(x + " ..."))
  {
    ThatStatement(x, u, v);
    EllipsisAsk(x, v);
  }
}

=== FILE: roundtrip.dfy ===
/** Statements built from a sentence and a bid/ask clause written the
    usual way, and what `extractBet` makes of them: the trimmed sentence back
    as the proposition and the numbers back as prices. */
module RoundTrip {
  import opened Wrappers
  import opened Text
  import opened SubClause
  import opened Statement
  import opened Scan
  import opened Extract

  /** The decimal digit with value `d`. */
  function DigitChar(d: nat): (c: char)
    requires d < 10
    ensures IsDigit(c) && DigitValue(c) == d
  {
    (('0' as int) + d) as char
  }

  /** `n` written in decimal with no leading zero. */
  function Numeral(n: nat): (t: string)
    requires n < 100
    ensures 1 <= |t| <= 2 && AllDigits(t, 0, |t|)
    ensures |t| == 1 <==> n < 10
  {
    if n < 10 then [DigitChar(n)] else [DigitChar(n / 10), DigitChar(n % 10)]
  }

  /** What a greedy `[0-9]{1,2}` takes when it takes a whole number: one or
      two digits (a leading zero is allowed, as `parseFloat` allows it). */
  predicate IsNumeral(u: string) {
    1 <= |u| <= 2 && AllDigits(u, 0, |u|)
  }

  /** The number `parseFloat` reads from a numeral. */
  function ValueOf(u: string): (n: nat)
    requires IsNumeral(u)
    ensures n < 100 && (|u| == 1 ==> n < 10)
  {
    NumberAt(u, 0, |u|)
  }

  /** Writing a number and reading it back gives the number. */
  lemma NumeralReadsBack(n: nat)
    requires n < 100
    ensures IsNumeral(Numeral(n)) && ValueOf(Numeral(n)) == n
  {
    var t := Numeral(n);
    assert DigitAt(t, 0);
    if n >= 10 {
      assert DigitAt(t, 1);
      assert DigitValue(t[0]) == n / 10 && DigitValue(t[1]) == n % 10;
    }
  }

  /** Reading a numeral with no leading zero and writing the number gives
      the numeral back. */
  lemma ValueWritesBack(u: string)
    requires IsNumeral(u) && (|u| == 2 ==> u[0] != '0')
    ensures Numeral(ValueOf(u)) == u
  {
    assert DigitAt(u, 0);
    var h := DigitValue(u[0]);
    assert DigitChar(h) == u[0];
    if |u| == 2 {
      assert DigitAt(u, 1);
      var l := DigitValue(u[1]);
      assert DigitChar(l) == u[1];
      assert 1 <= h && ValueOf(u) == 10 * h + l;
      assert (10 * h + l) / 10 == h && (10 * h + l) % 10 == l;
    }
  }


  /** A sentence a bet can be about: it has no line break and no sub-clause
      reading starts anywhere in it. It may hold digits, `at` or `bid`
      where they do not form a sub-clause, as in `past 10pm`. */
  ghost predicate Sentence(x: string) {
    LineFree(x, 0) && Unread(x, |x|)
  }

  /** Text with no line break and none of a digit, `at` or `bid` anywhere:
      a check made position by position. */
  predicate PlainText(x: string) {
    LineFree(x, 0) && Plain(x, 0, |x|)
  }

  /** Plain text is a sentence. */
  lemma PlainIsSentence(x: string)
    requires PlainText(x)
    ensures Sentence(x)
  {
    PlainHasNoReading(x, 0, |x|);
  }

  /** A reading that starts inside `x` in `x, c` stops before the comma,
      which is no reading character, so it is a reading of `x` alone. */
  lemma ReadingBeforeComma(x: string, c: string, s: string, p: nat, m: SubMatch)
    requires s == x + ", " + c && p < |x| && Parses(s, p, m)
    ensures Parses(x, p, m)
  {
    ReadingChars(s, p, m);
    assert !ReadingChar(s[|x|]);
    assert p + Length(m) <= |x|;
    ParsesInPrefix(s, |x|, p, m);
    assert s[..|x|] == x;
  }

  /** Putting `, c` after a sentence starts no reading inside it. */
  lemma UnreadBeforeComma(x: string, c: string, s: string)
    requires Unread(x, |x|) && s == x + ", " + c
    ensures Unread(s, |x|)
  {
    forall p: nat, m | p < |x| && Parses(s, p, m)
      ensures false
    {
      ReadingBeforeComma(x, c, s, p, m);
    }
  }

  /** Plain text, then a sentence that starts with a space, is a sentence:
      nothing in the plain part starts a reading, and a reading in the
      sentence part would be one of that sentence. */
  lemma SentenceAfterPlain(x: string, y: string)
    requires PlainText(x) && Sentence(y) && |y| > 0 && y[0] == ' '
    ensures Sentence(x + y)
  {
    var s := x + y;
    assert s[|x|..] == y;
    PlainBeforeBreak(x, y, 0);
    PlainHasNoReading(s, 0, |x|);
    forall p: nat, m | p < |s| && Parses(s, p, m)
      ensures false
    {
      if |x| <= p {
        ParsesInSuffix(s, |x|, p, m);
      }
    }
    LineFreeAppend(x, y);
  }

  /** A text with no line break after a text with none has none. */
  lemma LineFreeAppend(x: string, y: string)
    requires LineFree(x, 0) && NoLineTerminator(y, 0, |y|)
    ensures LineFree(x + y, 0)
  {
    var s := x + y;
    forall k | 0 <= k < |s|
      ensures !LineTerminatorAt(s, k)
    {
      if k < |x| {
        assert !LineTerminatorAt(x, k);
      } else {
        assert !LineTerminatorAt(y, k - |x|);
      }
    }
  }

  /** A plain stretch stays plain when a space or a comma follows it: neither
      continues an `at` or a `bid` begun inside it. */
  lemma {:induction false} PlainBeforeBreak(x: string, y: string, q: nat)
    requires q <= |x| && Plain(x, q, |x|) && |y| > 0 && (y[0] == ' ' || y[0] == ',')
    ensures Plain(x + y, q, |x|)
    decreases |x| - q
  {
    if q < |x| {
      PlainBeforeBreak(x, y, q + 1);
      assert NoClauseAt(x, q);
      var s := x + y;
      assert s[q] == x[q];
      if q + 1 < |x| {
        assert s[q + 1] == x[q + 1];
      }
      if q + 2 < |x| {
        assert s[q + 2] == x[q + 2];
      }
      assert NoClauseAt(s, q);
    }
  }

  /** A plain stretch stays plain whatever comes before it: whether a
      sub-clause starts somewhere depends only on the text from there on. */
  lemma {:induction false} PlainAfter(x: string, y: string, q: nat)
    requires q <= |y| && Plain(y, q, |y|)
    ensures Plain(x + y, |x| + q, |x| + |y|)
    decreases |y| - q
  {
    if q < |y| {
      PlainAfter(x, y, q + 1);
      assert NoClauseAt(y, q);
      var s := x + y;
      assert s[|x| + q] == y[q];
      if q + 1 < |y| {
        assert s[|x| + q + 1] == y[q + 1];
      }
      if q + 2 < |y| {
        assert s[|x| + q + 2] == y[q + 2];
      }
      assert NoClauseAt(s, |x| + q);
    }
  }

  /** Two plain texts, the second starting with a space, make one. */
  lemma PlainTextAppend(x: string, y: string)
    requires PlainText(x) && PlainText(y) && (|y| > 0 ==> y[0] == ' ')
    ensures PlainText(x + y)
  {
    if |y| > 0 {
      PlainBeforeBreak(x, y, 0);
    } else {
      assert x + y == x;
    }
    PlainAfter(x, y, 0);
    PlainJoin(x + y, 0, |x|, |x| + |y|);
    LineFreeAppend(x, y);
  }

  /** No line terminator anywhere in `t`. */
  predicate Clean(t: string) {
    NoLineTerminator(t, 0, |t|)
  }

  lemma CleanJoin(a: string, b: string)
    requires Clean(a) && Clean(b)
    ensures Clean(a + b)
  {
    forall k | 0 <= k < |a + b|
      ensures !LineTerminatorAt(a + b, k)
    {
      if k < |a| {
        assert (a + b)[k] == a[k] && !LineTerminatorAt(a, k);
      } else {
        assert (a + b)[k] == b[k - |a|] && !LineTerminatorAt(b, k - |a|);
      }
    }
  }

  lemma NumeralClean(u: string)
    requires IsNumeral(u)
    ensures Clean(u)
  {
    forall k | 0 <= k < |u|
      ensures !LineTerminatorAt(u, k)
    {
      assert DigitAt(u, k);
    }
  }

  /** The words and separators of a clause hold no line break. */
  lemma WordsClean()
    ensures Clean(" bid") && Clean(" bid ") && Clean("at ") && Clean(" ")
  {
  }

  /** At `i`: a numeral of `d` digits naming `n`, one space, `bid`, then
      `tr` spaces (none or one) followed by neither a space nor a digit.
      This is `NN bid` written the usual way. */
  predicate NumBidLaidOut(t: string, i: nat, d: nat, tr: nat, n: nat) {
    && (d == 1 || d == 2) && tr <= 1
    && i + d + 4 + tr <= |t|
    && AllDigits(t, i, i + d) && NumberAt(t, i, d) == n
    && SpaceAt(t, i + d) && BidWordAt(t, i + d + 1)
    && (tr == 1 ==> SpaceAt(t, i + d + 4))
    && !SpaceAt(t, i + d + 4 + tr) && !DigitAt(t, i + d + 4 + tr)
  }

  /** At `i`: `at`, one space, a numeral of `d` digits naming `n` (not
      followed by a third digit when it has one), then `tr` spaces (none or
      one) followed by something other than a space. This is `at NN`
      written the usual way. */
  predicate AtLaidOut(t: string, i: nat, d: nat, tr: nat, n: nat) {
    && (d == 1 || d == 2) && tr <= 1
    && i + 3 + d + tr <= |t|
    && AtWordAt(t, i) && SpaceAt(t, i + 2)
    && AllDigits(t, i + 3, i + 3 + d) && NumberAt(t, i + 3, d) == n
    && (d == 1 ==> !DigitAt(t, i + 4))
    && (tr == 1 ==> SpaceAt(t, i + 3 + d))
    && !SpaceAt(t, i + 3 + d + tr)
  }

  /** `NN bid` laid out the usual way is the sub-clause the engine reads at
      `i`, with one space before `bid` and the `tr` spaces after it, and
      `exec` captures `n`. */
  lemma NumBidRead(t: string, i: nat, d: nat, tr: nat, n: nat)
    requires NumBidLaidOut(t, i, d, tr, n)
    ensures MatchSubClause(t, i) == Some(SubMatch(NumBid, d, 1, tr))
    ensures HitAt(t, i) == Some(Hit(i, SubMatch(NumBid, d, 1, tr), n))
  {
    var b := i + d + 1;
    assert SpaceRun(t, i + d) == 1;
    assert SpaceRun(t, b + 3) == tr;
    if d == 1 {
      assert !DigitAt(t, i + 1);
    }
    assert MatchNumBid(t, i) == Some(SubMatch(NumBid, d, 1, tr));
  }

  /** `at NN` laid out the usual way is the sub-clause the engine reads at
      `i`, with one space after `at` and the `tr` spaces after the number,
      and `exec` captures `n`. */
  lemma AtRead(t: string, i: nat, d: nat, tr: nat, n: nat)
    requires AtLaidOut(t, i, d, tr, n)
    ensures MatchSubClause(t, i) == Some(SubMatch(At, d, 1, tr))
    ensures HitAt(t, i) == Some(Hit(i, SubMatch(At, d, 1, tr), n))
  {
    assert !DigitAt(t, i);
    assert SpaceRun(t, i + 2) == 1;
    assert DigitRun(t, i + 3) == d;
    assert SpaceRun(t, i + 3 + d) == tr;
    assert MatchNumBid(t, i) == None;
    assert KeywordGreedy(t, i, At) == SubMatch(At, d, 1, tr);
  }

  /** Text put in front of `NN bid` does not change how it is laid out. */
  lemma NumBidAfter(y: string, c: string, p: nat, d: nat, tr: nat, n: nat)
    requires NumBidLaidOut(c, p, d, tr, n)
    ensures NumBidLaidOut(y + c, |y| + p, d, tr, n)
  {
    var t, i := y + c, |y| + p;
    assert t[i] == c[p] && t[i + d] == c[p + d];
    assert t[i + d + 1] == c[p + d + 1] && t[i + d + 2] == c[p + d + 2] && t[i + d + 3] == c[p + d + 3];
    if d == 2 {
      assert t[i + 1] == c[p + 1];
    }
    if tr == 1 {
      assert t[i + d + 4] == c[p + d + 4];
    }
    if p + d + 4 + tr < |c| {
      assert t[i + d + 4 + tr] == c[p + d + 4 + tr];
    }
  }

  /** Text put in front of `at NN` does not change how it is laid out. */
  lemma AtAfter(y: string, c: string, p: nat, d: nat, tr: nat, n: nat)
    requires AtLaidOut(c, p, d, tr, n)
    ensures AtLaidOut(y + c, |y| + p, d, tr, n)
  {
    var t, i := y + c, |y| + p;
    assert t[i] == c[p] && t[i + 1] == c[p + 1] && t[i + 2] == c[p + 2] && t[i + 3] == c[p + 3];
    if d == 2 {
      assert t[i + 4] == c[p + 4];
    } else if p + 4 < |c| {
      assert t[i + 4] == c[p + 4];
    }
    if tr == 1 {
      assert t[i + 3 + d] == c[p + 3 + d];
    }
    if p + 3 + d + tr < |c| {
      assert t[i + 3 + d + tr] == c[p + 3 + d + tr];
    }
  }

  /** Digits keep their places and their value when text is put in front
      of them. */
  lemma DigitsAfter(y: string, c: string, p: nat, d: nat)
    requires 1 <= d <= 2 && p + d <= |c| && AllDigits(c, p, p + d)
    ensures AllDigits(y + c, |y| + p, |y| + p + d)
    ensures NumberAt(y + c, |y| + p, d) == NumberAt(c, p, d)
  {
    var t := y + c;
    forall k | |y| + p <= k < |y| + p + d
      ensures DigitAt(t, k)
    {
      assert t[k] == c[k - |y|] && DigitAt(c, k - |y|);
    }
    assert t[|y| + p] == c[p];
    if d == 2 {
      assert t[|y| + p + 1] == c[p + 1];
    }
  }

  /** Digits keep their places and their value when text is put after
      them. */
  lemma DigitsBefore(c: string, z: string, p: nat, d: nat)
    requires 1 <= d <= 2 && p + d <= |c| && AllDigits(c, p, p + d)
    ensures AllDigits(c + z, p, p + d)
    ensures NumberAt(c + z, p, d) == NumberAt(c, p, d)
  {
    var t := c + z;
    forall k | p <= k < p + d
      ensures DigitAt(t, k)
    {
      assert t[k] == c[k] && DigitAt(c, k);
    }
    assert t[p] == c[p];
    if d == 2 {
      assert t[p + 1] == c[p + 1];
    }
  }

  /** `u bid` ending the text. */
  lemma NumBidEndPiece(u: string)
    requires IsNumeral(u)
    ensures NumBidLaidOut(u + " bid", 0, |u|, 0, ValueOf(u))
  {
    var t, d := u + " bid", |u|;
    DigitsBefore(u, " bid", 0, d);
    assert t[d] == ' ' && t[d + 1] == 'b' && t[d + 2] == 'i' && t[d + 3] == 'd';
  }

  /** `u bid ` followed by text that starts with neither a space nor a
      digit. */
  lemma NumBidPiece(u: string, r: string)
    requires IsNumeral(u) && |r| > 0 && r[0] != ' ' && !IsDigit(r[0])
    ensures NumBidLaidOut(u + " bid " + r, 0, |u|, 1, ValueOf(u))
  {
    var t, d := u + " bid " + r, |u|;
    DigitsBefore(u, " bid ", 0, d);
    DigitsBefore(u + " bid ", r, 0, d);
    assert t[d] == ' ' && t[d + 1] == 'b' && t[d + 2] == 'i' && t[d + 3] == 'd';
    assert t[d + 4] == ' ' && t[d + 5] == r[0];
  }

  /** `at v` ending the text. */
  lemma AtEndPiece(v: string)
    requires IsNumeral(v)
    ensures AtLaidOut("at " + v, 0, |v|, 0, ValueOf(v))
  {
    DigitsAfter("at ", v, 0, |v|);
  }

  /** `at v ` followed by the end of the text or by something other than a
      space. */
  lemma AtPiece(v: string, r: string)
    requires IsNumeral(v) && (|r| == 0 || r[0] != ' ')
    ensures AtLaidOut("at " + v + " " + r, 0, |v|, 1, ValueOf(v))
  {
    var t, d := "at " + v + " " + r, |v|;
    DigitsAfter("at ", v, 0, d);
    DigitsBefore("at " + v, " ", 3, d);
    DigitsBefore("at " + v + " ", r, 3, d);
    assert t[3 + d] == ' ';
    if |r| > 0 {
      assert t[4 + d] == r[0];
    }
  }

  /** Nothing starts at the end of the input. */
  lemma NothingAtEnd(t: string)
    ensures MatchSubClause(t, |t|) == None && MatchThat(t, |t|) == None
  {
    assert MatchNumBid(t, |t|) == None;
  }

  /** A clause that is exactly one sub-clause yields its number on its side
      and nothing on the other. */
  lemma ScanSingle(c: string, m: SubMatch, p: nat)
    requires HitAt(c, 0) == Some(Hit(0, m, p)) && Length(m) == |c|
    ensures ScanClause(c) == if IsBid(m.form) then (Some(p), None) else (None, Some(p))
  {
    var h := Hit(0, m, p);
    assert Exec(c, 0) == Some(h);
    NothingAtEnd(c);
    assert Exec(c, |c|) == None;
    var bid, ask := Overwrite(h, BidSide, None), Overwrite(h, AskSide, None);
    assert Collect(c, |c|, bid, ask) == (bid, ask);
    assert Collect(c, 0, None, None) == Collect(c, |c|, bid, ask);
  }

  /** A clause that is exactly a bid sub-clause followed by an ask
      sub-clause yields both numbers. */
  lemma ScanBidThenAsk(c: string, m1: SubMatch, p1: nat, m2: SubMatch, p2: nat)
    requires IsBid(m1.form) && !IsBid(m2.form)
    requires HitAt(c, 0) == Some(Hit(0, m1, p1))
    requires Length(m1) <= |c| && HitAt(c, Length(m1)) == Some(Hit(Length(m1), m2, p2))
    requires Length(m1) + Length(m2) == |c|
    ensures ScanClause(c) == (Some(p1), Some(p2))
  {
    var h1, h2 := Hit(0, m1, p1), Hit(Length(m1), m2, p2);
    assert Exec(c, 0) == Some(h1);
    assert Exec(c, Length(m1)) == Some(h2);
    NothingAtEnd(c);
    assert Exec(c, |c|) == None;
    assert Collect(c, |c|, Some(p1), Some(p2)) == (Some(p1), Some(p2));
    assert Collect(c, Length(m1), Some(p1), None) == Collect(c, |c|, Some(p1), Some(p2));
    assert Collect(c, 0, None, None) == Collect(c, Length(m1), Some(p1), None);
  }

  /** `x, c` has no line break when neither `x` nor `c` has one. */
  lemma CommaLineFree(x: string, c: string)
    requires LineFree(x, 0) && Clean(c)
    ensures LineFree(x + ", " + c, 0)
  {
    var y := ", " + c;
    forall j | 0 <= j < |y|
      ensures !LineTerminatorAt(y, j)
    {
      if j >= 2 {
        assert y[j] == c[j - 2] && !LineTerminatorAt(c, j - 2);
      }
    }
    LineFreeAppend(x, y);
    assert x + y == x + ", " + c;
  }

  /** `s` holds no line break, no reading starts in its first `k`
      characters, and a comma follows them or they end in neither a space
      nor a comma, so the lazy prefix is `k` characters long; the group is
      then looked for at `a`. */
  ghost predicate LeadsInto(s: string, k: nat, a: nat) {
    && k < |s| && LineFree(s, 0) && Unread(s, k)
    && ((0 < k ==> !SpaceAt(s, k - 1) && !CommaAt(s, k - 1)) || CommaAt(s, k))
    && a == GroupStartAt(s, k)
  }

  /** From `a` the group reads `first` and, from `j` on, `second`; it ends
      at `e`, where no `that` follows. */
  predicate GroupReads(s: string, a: nat, j: nat, e: nat, first: SubMatch, second: Option<SubMatch>) {
    && a <= |s| && MatchSubClause(s, a) == Some(first)
    && j == a + Length(first) && j <= |s| && MatchSubClause(s, j) == second
    && e == a + GroupLength(Group(first, second)) && e <= |s| && !ThatWordAt(s, e)
  }

  /** The statement `x, c` for a sentence `x`: the comma and one space lead
      into `c`. */
  lemma CommaSentence(x: string, c: string, s: string)
    requires Sentence(x) && Clean(c) && |c| > 0 && c[0] != ' '
    requires s == x + ", " + c
    ensures LeadsInto(s, |x|, |x| + 2) && CommaAt(s, |x|) && LeadAt(s, |x|) == 1
  {
    var k := |x|;
    CommaLineFree(x, c);
    UnreadBeforeComma(x, c, s);
    assert s[k] == ',' && s[k + 1] == ' ' && s[k + 2] == c[0];
    assert SpaceRun(s, k + 1) == 1;
  }

  /** The pieces of `x, c`. */
  lemma CommaSlices(x: string, c: string, s: string)
    requires s == x + ", " + c
    ensures s[..|x|] == x && s[|x| + 2..] == c
  {
  }

  /** A lead in which no reading starts, into a group that ends where no
      `that` follows: that is the match. */
  lemma SentenceThenGroup(s: string, k: nat, a: nat, j: nat, e: nat, first: SubMatch, second: Option<SubMatch>)
    requires LeadsInto(s, k, a) && GroupReads(s, a, j, e, first, second)
    ensures MatchStatement(s) == Some(Shape(k, CommaAt(s, k), LeadAt(s, k), Group(first, second), None))
  {
    PlainPrefix(s, k);
    NoThat(s, e);
    MatchFromParts(s, k, a, j, e, first, second, None);
  }

  lemma NoThat(s: string, e: nat)
    requires e <= |s| && !ThatWordAt(s, e)
    ensures MatchThat(s, e) == None
  {
  }

  /** What `extractBet` makes of a statement matched with an empty suffix
      and no `that`: the proposition is the prefix, trimmed, and the prices
      are what the scan of the clause finds. */
  lemma BetOfStatement(s: string, sh: Shape)
    requires MatchStatement(s) == Some(sh)
    requires sh.that == None && ClauseEnd(sh) == |s|
    ensures ExtractBet(s) == Bet(FractionOf(ScanClause(s[ClauseStart(sh)..]).0),
                                 FractionOf(ScanClause(s[ClauseStart(sh)..]).1),
                                 Some(Trim(s[..sh.prefix])))
  {
    assert ClauseOf(s, sh) == s[ClauseStart(sh)..];
    assert s[SuffixStart(sh)..] == [];
    assert Trim([]) == [];
    assert Proposition(s[..sh.prefix], []) == Trim(s[..sh.prefix]);
  }

  /** `x, u bid`: the lazy prefix is `x` and the group is the bid alone. */
  lemma BidShape(x: string, u: string, s: string)
    requires Sentence(x) && IsNumeral(u)
    requires s == x + ", " + (u + " bid")
    ensures MatchStatement(s) == Some(Shape(|x|, true, 1, Group(SubMatch(NumBid, |u|, 1, 0), None), None))
  {
    var c, k := u + " bid", |x|;
    NumeralClean(u);
    WordsClean();
    CleanJoin(u, " bid");
    NumBidEndPiece(u);
    assert DigitAt(c, 0);
    CommaSentence(x, c, s);
    NumBidAfter(x + ", ", c, 0, |u|, 0, ValueOf(u));
    NumBidRead(s, k + 2, |u|, 0, ValueOf(u));
    NothingAtEnd(s);
    SentenceThenGroup(s, k, k + 2, |s|, |s|, SubMatch(NumBid, |u|, 1, 0), None);
  }

  /** `x, u bid` gives the bid `u/100`, no ask, and the trimmed `x` as the
      proposition. */
  lemma BidStatement(x: string, u: string)
    requires Sentence(x) && IsNumeral(u)
    ensures ExtractBet(x + ", " + (u + " bid")) == Bet(Some(Fraction(ValueOf(u))), None, Some(Trim(x)))
  {
    var c := u + " bid";
    var s := x + ", " + c;
    var m := SubMatch(NumBid, |u|, 1, 0);
    BidShape(x, u, s);
    BetOfStatement(s, Shape(|x|, true, 1, Group(m, None), None));
    CommaSlices(x, c, s);
    NumBidEndPiece(u);
    NumBidRead(c, 0, |u|, 0, ValueOf(u));
    ScanSingle(c, m, ValueOf(u));
  }

  /** `x, NN bid` gives the bid `NN/100`, no ask, and the trimmed `x` as
      the proposition. */
  lemma BidRoundTrip(x: string, n: nat)
    requires Sentence(x) && n < 100
    ensures ExtractBet(x + ", " + (Numeral(n) + " bid")) == Bet(Some(Fraction(n)), None, Some(Trim(x)))
  {
    NumeralReadsBack(n);
    BidStatement(x, Numeral(n));
  }

  /** `x, at v`: the lazy prefix is `x` and the group is the ask alone. */
  lemma AskShape(x: string, v: string, s: string)
    requires Sentence(x) && IsNumeral(v)
    requires s == x + ", " + ("at " + v)
    ensures MatchStatement(s) == Some(Shape(|x|, true, 1, Group(SubMatch(At, |v|, 1, 0), None), None))
  {
    var c, k := "at " + v, |x|;
    NumeralClean(v);
    WordsClean();
    CleanJoin("at ", v);
    CommaSentence(x, c, s);
    AtEndPiece(v);
    AtAfter(x + ", ", c, 0, |v|, 0, ValueOf(v));
    AtRead(s, k + 2, |v|, 0, ValueOf(v));
    NothingAtEnd(s);
    SentenceThenGroup(s, k, k + 2, |s|, |s|, SubMatch(At, |v|, 1, 0), None);
  }

  /** `x, at v` gives no bid, the ask `v/100`, and the trimmed `x` as the
      proposition. */
  lemma AskStatement(x: string, v: string)
    requires Sentence(x) && IsNumeral(v)
    ensures ExtractBet(x + ", " + ("at " + v)) == Bet(None, Some(Fraction(ValueOf(v))), Some(Trim(x)))
  {
    var c := "at " + v;
    var s := x + ", " + c;
    var m := SubMatch(At, |v|, 1, 0);
    AskShape(x, v, s);
    BetOfStatement(s, Shape(|x|, true, 1, Group(m, None), None));
    CommaSlices(x, c, s);
    AtEndPiece(v);
    AtRead(c, 0, |v|, 0, ValueOf(v));
    ScanSingle(c, m, ValueOf(v));
  }

  /** `x, at NN` gives no bid, the ask `NN/100`, and the trimmed `x` as
      the proposition. */
  lemma AskRoundTrip(x: string, n: nat)
    requires Sentence(x) && n < 100
    ensures ExtractBet(x + ", " + ("at " + Numeral(n))) == Bet(None, Some(Fraction(n)), Some(Trim(x)))
  {
    NumeralReadsBack(n);
    AskStatement(x, Numeral(n));
  }

  /** The clause `u bid at v`: no line break, `u bid ` then `at v`. */
  lemma BidAskClause(u: string, v: string, c: string)
    requires IsNumeral(u) && IsNumeral(v) && c == u + " bid " + ("at " + v)
    ensures Clean(c) && |c| > 0 && c[0] != ' '
    ensures NumBidLaidOut(c, 0, |u|, 1, ValueOf(u))
    ensures AtLaidOut(c, |u| + 5, |v|, 0, ValueOf(v))
  {
    NumeralClean(u);
    NumeralClean(v);
    WordsClean();
    CleanJoin(u, " bid ");
    CleanJoin("at ", v);
    CleanJoin(u + " bid ", "at " + v);
    NumBidPiece(u, "at " + v);
    AtEndPiece(v);
    AtAfter(u + " bid ", "at " + v, 0, |v|, 0, ValueOf(v));
  }

  /** `x, u bid at v`: the lazy prefix is `x`, and the group is the bid
      with its trailing space followed by the ask. */
  lemma BidAskShape(x: string, u: string, v: string, s: string)
    requires Sentence(x) && IsNumeral(u) && IsNumeral(v)
    requires s == x + ", " + (u + " bid " + ("at " + v))
    ensures MatchStatement(s) == Some(Shape(|x|, true, 1,
      Group(SubMatch(NumBid, |u|, 1, 1), Some(SubMatch(At, |v|, 1, 0))), None))
  {
    var c, k := u + " bid " + ("at " + v), |x|;
    var j := k + 2 + (|u| + 5);
    BidAskClause(u, v, c);
    CommaSentence(x, c, s);
    NumBidAfter(x + ", ", c, 0, |u|, 1, ValueOf(u));
    AtAfter(x + ", ", c, |u| + 5, |v|, 0, ValueOf(v));
    NumBidRead(s, k + 2, |u|, 1, ValueOf(u));
    AtRead(s, j, |v|, 0, ValueOf(v));
    SentenceThenGroup(s, k, k + 2, j, |s|, SubMatch(NumBid, |u|, 1, 1), Some(SubMatch(At, |v|, 1, 0)));
  }

  /** The scan of `u bid at v` finds the bid, then the ask. */
  lemma BidAskScan(u: string, v: string, c: string)
    requires IsNumeral(u) && IsNumeral(v) && c == u + " bid " + ("at " + v)
    ensures ScanClause(c) == (Some(ValueOf(u)), Some(ValueOf(v)))
  {
    var m1, m2 := SubMatch(NumBid, |u|, 1, 1), SubMatch(At, |v|, 1, 0);
    BidAskClause(u, v, c);
    NumBidRead(c, 0, |u|, 1, ValueOf(u));
    AtRead(c, |u| + 5, |v|, 0, ValueOf(v));
    ScanBidThenAsk(c, m1, ValueOf(u), m2, ValueOf(v));
  }

  /** `x, u bid at v` gives the bid `u/100`, the ask `v/100`, and the
      trimmed `x` as the proposition. */
  lemma BidAskStatement(x: string, u: string, v: string)
    requires Sentence(x) && IsNumeral(u) && IsNumeral(v)
    ensures ExtractBet(x + ", " + (u + " bid " + ("at " + v)))
         == Bet(Some(Fraction(ValueOf(u))), Some(Fraction(ValueOf(v))), Some(Trim(x)))
  {
    var c := u + " bid " + ("at " + v);
    var s := x + ", " + c;
    var m1, m2 := SubMatch(NumBid, |u|, 1, 1), SubMatch(At, |v|, 1, 0);
    BidAskShape(x, u, v, s);
    BetOfStatement(s, Shape(|x|, true, 1, Group(m1, Some(m2)), None));
    CommaSlices(x, c, s);
    BidAskScan(u, v, c);
  }

  /** `x, BB bid at AA` gives the bid `BB/100`, the ask `AA/100`, and the
      trimmed `x` as the proposition. */
  lemma BidAskRoundTrip(x: string, b: nat, a: nat)
    requires Sentence(x) && b < 100 && a < 100
    ensures ExtractBet(x + ", " + (Numeral(b) + " bid " + ("at " + Numeral(a))))
         == Bet(Some(Fraction(b)), Some(Fraction(a)), Some(Trim(x)))
  {
    NumeralReadsBack(b);
    NumeralReadsBack(a);
    BidAskStatement(x, Numeral(b), Numeral(a));
  }
}

=== FILE: scan.dfy ===
/** The scan of the isolated clause with the global pattern
      `/(?:([0-9]{1,2}) *bid *(?:(?=[^0-9])|$)|at *([0-9]{1,2}) *|bid *([0-9]{1,2}) *)/g`
    and the loop that calls `exec` on it until it returns `null`, keeping the
    last bid and the last ask it sees. */
module Scan {
  import opened Wrappers
  import opened Text
  import opened SubClause

  /** One successful `exec`: where the match starts, how the alternation read
      there, and the number its capture holds. */
  datatype Hit = Hit(at: nat, m: SubMatch, percent: nat)

  function HitEnd(h: Hit): nat {
    h.at + Length(h.m)
  }

  /** Which of the two output slots a hit writes: captures 1 and 3 go to the
      bid, capture 2 to the ask. */
  datatype Side = BidSide | AskSide

  predicate OnSide(h: Hit, side: Side) {
    if side == BidSide then IsBid(h.m.form) else !IsBid(h.m.form)
  }

  /** The match of the sticky attempt at `i`, with its capture's value. */
  function HitAt(t: string, i: nat): (r: Option<Hit>)
    requires i <= |t|
    ensures r.Some? ==> r.value.at == i && HitEnd(r.value) <= |t| && r.value.percent < 100
  {
    match MatchSubClause(t, i)
    case None => None
    case Some(m) =>
      SubClauseIsFirst(t, i);
      Some(Hit(i, m, Percent(t, i, m)))
  }

  /** `exec` with `lastIndex == i`: the match at the first position from `i`
      on where the alternation matches, or none. */
  function Exec(t: string, i: nat): (r: Option<Hit>)
    requires i <= |t|
    ensures r.Some? ==> i <= r.value.at < HitEnd(r.value) <= |t| && r.value.percent < 100
    decreases |t| - i
  {
    match HitAt(t, i)
    case Some(h) => Some(h)
    case None => if i == |t| then None else Exec(t, i + 1)
  }

  /** `h` is the match a backtracking engine reports for a search from `i`:
      no reading starts between `i` and `h.at`, the reading at `h.at` is the
      first one tried there, and `h.percent` is the number it captures. */
  ghost predicate FirstHit(t: string, i: nat, h: Hit) {
    && i <= h.at
    && FirstIn(t, h.at, h.m, Any)
    && h.percent == Percent(t, h.at, h.m)
    && forall q, m :: i <= q < h.at ==> !Parses(t, q, m)
  }

  /** What `exec` reports for a search from `i`: the first hit, or `null`
      when no reading starts at or after `i`. */
  ghost predicate ExecAnswers(t: string, i: nat, r: Option<Hit>) {
    match r
    case Some(h) => FirstHit(t, i, h)
    case None => forall q, m :: i <= q ==> !Parses(t, q, m)
  }

  /** `Exec` returns the match the engine reports, and `null` exactly when no
      reading starts at or after `i`. */
  lemma ExecIsFirst(t: string, i: nat)
    requires i <= |t|
    ensures ExecAnswers(t, i, Exec(t, i))
  {
    ExecCases(t, i);
  }

  /* The `forall r | r == F(..) :: P(r)` form of the lemmas below is
     explained in `SubClause`. */
  lemma {:induction false} ExecCases(t: string, i: nat)
    requires i <= |t|
    ensures forall r | r == Exec(t, i) :: ExecAnswers(t, i, r)
    decreases |t| - i
  {
    SubClauseIsFirst(t, i);
    match MatchSubClause(t, i)
    case Some(m) =>
      var h := Hit(i, m, Percent(t, i, m));
      assert HitAt(t, i) == Some(h);
      assert Exec(t, i) == Some(h);
      assert FirstHit(t, i, h);
    case None =>
      assert HitAt(t, i) == None;
      if i == |t| {
        assert Exec(t, i) == None;
        ExecEnd(t, i);
      } else {
        ExecCases(t, i + 1);
        var r := Exec(t, i + 1);
        assert Exec(t, i) == r;
        ExecStep(t, i, i + 1, r);
      }
  }

  /** No reading starts at the end of the input or beyond it. */
  lemma ExecEnd(t: string, i: nat)
    requires i == |t| && NoneIn(t, i, Any)
    ensures ExecAnswers(t, i, None)
  {
    forall q, m | i <= q && Parses(t, q, m)
      ensures false
    {
      LengthBounds(t, q, m);
    }
  }

  /** When nothing starts at `i`, the search from `i` reports what the search
      from `i + 1` does. */
  lemma ExecStep(t: string, i: nat, j: nat, r: Option<Hit>)
    requires j == i + 1 && NoneIn(t, i, Any)
    requires forall x | x == r :: ExecAnswers(t, j, x)
    ensures forall x | x == r :: ExecAnswers(t, i, x)
  {
    assert ExecAnswers(t, j, r);
    match r
    case Some(h) =>
      forall q, m | i <= q < h.at
        ensures !Parses(t, q, m)
      {
        if q == i {
          assert !InScope(m, Any) || !Parses(t, q, m);
        }
      }
      assert FirstHit(t, i, h);
    case None =>
  }

  /** Every match `exec` returns from `i` on, in order; each search resumes
      where the previous match ended. */
  function Hits(t: string, i: nat): (hs: seq<Hit>)
    requires i <= |t|
    ensures forall k :: 0 <= k < |hs| ==> i <= hs[k].at && HitEnd(hs[k]) <= |t| && hs[k].percent < 100
    ensures forall k :: 0 <= k < |hs| - 1 ==> HitEnd(hs[k]) <= hs[k + 1].at
    decreases |t| - i
  {
    match Exec(t, i)
    case None => []
    case Some(h) =>
      [h] + Hits(t, HitEnd(h))
  }

  /** The loop body's effect: a hit overwrites the slot of its side. */
  function Overwrite(h: Hit, side: Side, slot: Option<nat>): (r: Option<nat>)
    ensures OnSide(h, side) ==> r == Some(h.percent)
    ensures !OnSide(h, side) ==> r == slot
  {
    if OnSide(h, side) then Some(h.percent) else slot
  }

  /** The `while (true)` loop from `lastIndex == i`, with the current slots;
      it returns the final `(bid, ask)`. */
  function Collect(t: string, i: nat, bid: Option<nat>, ask: Option<nat>): (r: (Option<nat>, Option<nat>))
    requires i <= |t|
    decreases |t| - i
  {
    match Exec(t, i)
    case None => (bid, ask)
    case Some(h) =>
      Collect(t, HitEnd(h), Overwrite(h, BidSide, bid), Overwrite(h, AskSide, ask))
  }

  /** The value of the last hit on `side`, if any: the reference meaning of
      "later matches silently overwrite earlier ones". */
  function LastOf(hs: seq<Hit>, side: Side): (r: Option<nat>)
    ensures r.None? <==> forall k :: 0 <= k < |hs| ==> !OnSide(hs[k], side)
  {
    if |hs| == 0 then None
    else if OnSide(hs[|hs| - 1], side) then Some(hs[|hs| - 1].percent)
    else
      var r := LastOf(hs[..|hs| - 1], side);
      assert forall k :: 0 <= k < |hs| - 1 ==> hs[..|hs| - 1][k] == hs[k];
      r
  }

  /** The value `LastOf` returns is that of a hit on `side`, at index `k`,
      after which no hit is on `side`. */
  lemma {:induction false} LastOfIsLast(hs: seq<Hit>, side: Side) returns (k: nat)
    requires LastOf(hs, side).Some?
    ensures k < |hs| && OnSide(hs[k], side) && hs[k].percent == LastOf(hs, side).value
    ensures forall k' :: k < k' < |hs| ==> !OnSide(hs[k'], side)
  {
    var n := |hs| - 1;
    if OnSide(hs[n], side) {
      k := n;
    } else {
      var init := hs[..n];
      assert forall j :: 0 <= j < n ==> init[j] == hs[j];
      k := LastOfIsLast(init, side);
      assert hs[k] == init[k];
    }
  }

  /** `o`, or `fallback` when `o` is absent. */
  function Or(o: Option<nat>, fallback: Option<nat>): (r: Option<nat>)
    ensures r.Some? <==> o.Some? || fallback.Some?
    ensures o.Some? ==> r == o
  {
    if o.Some? then o else fallback
  }

  /** Adding one hit in front: the last hit on a side is in the rest when
      the rest has one, else it is the new hit when that is on the side. */
  lemma LastOfCons(h: Hit, hs: seq<Hit>, side: Side)
    ensures LastOf([h] + hs, side) == Or(LastOf(hs, side), Overwrite(h, side, None))
  {
    var all := [h] + hs;
    assert forall k :: 1 <= k < |all| ==> all[k] == hs[k - 1];
    if LastOf(hs, side).None? {
      if OnSide(h, side) {
        LastOfIndex(all, side, 0);
      } else {
        assert forall k :: 0 <= k < |all| ==> !OnSide(all[k], side);
      }
    } else {
      var k := LastOfIsLast(hs, side);
      LastOfIndex(all, side, k + 1);
    }
  }

  /** A hit on `side` followed by none on `side` is the last one. */
  lemma {:induction false} LastOfIndex(hs: seq<Hit>, side: Side, k: nat)
    requires k < |hs| && OnSide(hs[k], side)
    requires forall k' :: k < k' < |hs| ==> !OnSide(hs[k'], side)
    ensures LastOf(hs, side) == Some(hs[k].percent)
    decreases |hs|
  {
    if k < |hs| - 1 {
      var init := hs[..|hs| - 1];
      assert forall j :: 0 <= j < |init| ==> init[j] == hs[j];
      LastOfIndex(init, side, k);
    }
  }

  /** The loop keeps, for each slot, the last hit on its side, or the value
      the slot had before the loop when there is none. */
  lemma {:induction false} CollectKeepsLast(t: string, i: nat, bid: Option<nat>, ask: Option<nat>)
    requires i <= |t|
    ensures Collect(t, i, bid, ask) == (Or(LastOf(Hits(t, i), BidSide), bid), Or(LastOf(Hits(t, i), AskSide), ask))
    decreases |t| - i
  {
    match Exec(t, i)
    case None =>
    case Some(h) =>
      var j := HitEnd(h);
      var rest := Hits(t, j);
      var bid', ask' := Overwrite(h, BidSide, bid), Overwrite(h, AskSide, ask);
      assert Collect(t, i, bid, ask) == Collect(t, j, bid', ask');
      assert Hits(t, i) == [h] + rest;
      CollectKeepsLast(t, j, bid', ask');
      LastOfCons(h, rest, BidSide);
      LastOfCons(h, rest, AskSide);
  }

  /** The whole loop on the clause, from `bid = null`, `ask = null` and
      `lastIndex = 0`. */
  function ScanClause(t: string): (r: (Option<nat>, Option<nat>)) {
    Collect(t, 0, None, None)
  }

  /** The clause's bid is the last bid-side hit and its ask the last ask-side
      hit; each is absent exactly when no hit is on its side. */
  lemma ScanKeepsLast(t: string)
    ensures ScanClause(t) == (LastOf(Hits(t, 0), BidSide), LastOf(Hits(t, 0), AskSide))
  {
    CollectKeepsLast(t, 0, None, None);
  }

  /** A clause that starts with a sub-clause yields a bid or an ask. */
  lemma ScanFindsOne(t: string, m: SubMatch)
    requires Parses(t, 0, m)
    ensures ScanClause(t).0.Some? || ScanClause(t).1.Some?
  {
    ScanKeepsLast(t);
    SubClauseIsFirst(t, 0);
    var first := MatchSubClause(t, 0).value;
    var h := Hit(0, first, Percent(t, 0, first));
    assert HitAt(t, 0) == Some(h);
    assert Exec(t, 0) == Some(h);
    LengthBounds(t, 0, first);
    assert Hits(t, 0)[0] == h;
    if IsBid(first.form) {
      assert LastOf(Hits(t, 0), BidSide).Some?;
    } else {
      assert LastOf(Hits(t, 0), AskSide).Some?;
    }
  }
}

=== FILE: statement.dfy ===
/** The whole-statement pattern
      `^(.*?),? *((?:<sub-clause>){1,2})(?:that *)?(.*)$`
    and the single match a backtracking engine returns for it: the first
    reading in the order its quantifiers and alternatives are tried. */
module Statement {
  import opened Wrappers
  import opened Text
  import opened SubClause

  /** The bid/ask clause: one sub-clause, and a second when `{1,2}` took
      two. */
  datatype Group = Group(first: SubMatch, second: Option<SubMatch>)

  function GroupLength(g: Group): nat {
    Length(g.first) + if g.second.Some? then Length(g.second.value) else 0
  }

  /** `g` is a way for the group to match at position `i` of `t`. */
  predicate GroupParses(t: string, i: nat, g: Group) {
    && Parses(t, i, g.first)
    && (g.second.Some? ==> Parses(t, i + Length(g.first), g.second.value))
  }

  /** Order of trial for the group: the first sub-clause's order, then a
      second iteration before none (`{1,2}` is greedy), then the second
      sub-clause's order. */
  predicate GroupTriedBefore(a: Group, b: Group) {
    || TriedBefore(a.first, b.first)
    || (a.first == b.first && a.second.Some? && b.second.None?)
    || (a.first == b.first && a.second.Some? && b.second.Some?
        && TriedBefore(a.second.value, b.second.value))
  }

  /** `g` is the group the engine settles on at `i`. */
  ghost predicate FirstGroup(t: string, i: nat, g: Group) {
    && GroupParses(t, i, g)
    && forall g' :: GroupParses(t, i, g') ==> g' == g || GroupTriedBefore(g, g')
  }

  /** The group at `i`, as the engine reads it: a first sub-clause, then a
      second one when another follows directly. */
  function MatchGroup(t: string, i: nat): (r: Option<Group>)
    requires i <= |t|
    ensures r.Some? <==> MatchSubClause(t, i).Some?
    ensures r.Some? ==> i + GroupLength(r.value) <= |t|
  {
    WithFirst(t, i, MatchSubClause(t, i))
  }

  /** The group once its first sub-clause `o` is known. */
  function WithFirst(t: string, i: nat, o: Option<SubMatch>): (r: Option<Group>)
    requires o.Some? ==> i + Length(o.value) <= |t|
    ensures r.Some? <==> o.Some?
    ensures r.Some? ==> i + GroupLength(r.value) <= |t|
  {
    match o
    case None => None
    case Some(m) => Some(Group(m, MatchSubClause(t, i + Length(m))))
  }

  /** `r` is what the engine reports for the group at `i`: the first group,
      or nothing when no group matches there. */
  ghost predicate GroupAnswers(t: string, i: nat, r: Option<Group>) {
    match r
    case Some(g) => FirstGroup(t, i, g)
    case None => forall g :: !GroupParses(t, i, g)
  }

  /** `MatchGroup` returns the first group, and nothing only when no group
      matches at `i`. */
  lemma GroupIsFirst(t: string, i: nat)
    requires i <= |t|
    ensures GroupAnswers(t, i, MatchGroup(t, i))
  {
    GroupCases(t, i);
  }

  /* The `forall r | r == F(..) :: P(r)` form of the lemmas below is
     explained in `SubClause`. */
  lemma GroupCases(t: string, i: nat)
    requires i <= |t|
    ensures forall r | r == MatchGroup(t, i) :: GroupAnswers(t, i, r)
  {
    SubClauseIsFirst(t, i);
    match MatchSubClause(t, i)
    case None =>
      GroupNone(t, i);
    case Some(m) =>
      GroupSome(t, i, m);
  }

  /** With the first sub-clause found, the first second one completes the
      first group. */
  lemma GroupSome(t: string, i: nat, m: SubMatch)
    requires i + Length(m) <= |t|
    requires FirstIn(t, i, m, Any)
    ensures forall r | r == WithFirst(t, i, Some(m)) :: GroupAnswers(t, i, r)
  {
    var j := i + Length(m);
    var second := MatchSubClause(t, j);
    SubClauseIsFirst(t, j);
    GroupChoice(t, i, j, m, second);
    assert WithFirst(t, i, Some(m)) == Some(Group(m, second));
  }

  lemma GroupNone(t: string, i: nat)
    requires NoneIn(t, i, Any)
    ensures GroupAnswers(t, i, None)
  {
    forall g | GroupParses(t, i, g)
      ensures false
    {
    }
  }

  /** The first sub-clause, then the first second one if any, make the
      first group. */
  lemma GroupChoice(t: string, i: nat, j: nat, first: SubMatch, second: Option<SubMatch>)
    requires j == i + Length(first) && j <= |t|
    requires forall m | m == first :: FirstIn(t, i, m, Any)
    requires forall o | o == second :: Answers(t, j, o, Any)
    ensures FirstGroup(t, i, Group(first, second))
  {
    assert FirstIn(t, i, first, Any);
    assert Answers(t, j, second, Any);
    var g := Group(first, second);
    if g.second.Some? {
      LengthBounds(t, j, g.second.value);
    }
    forall g' | GroupParses(t, i, g')
      ensures g' == g || GroupTriedBefore(g, g')
    {
      assert g'.first == g.first || TriedBefore(g.first, g'.first);
      if g'.first == g.first && g'.second.Some? {
        assert Parses(t, j, g'.second.value);
      }
    }
  }

  /** `(?:that *)?` at `i`: the spaces after `that` when it is taken. */
  predicate ThatParses(t: string, i: nat, o: Option<nat>) {
    o.Some? ==> ThatWordAt(t, i) && i + 4 + o.value <= |t| && AllSpaces(t, i + 4, i + 4 + o.value)
  }

  function ThatLength(o: Option<nat>): nat {
    if o.Some? then 4 + o.value else 0
  }

  /** The optional group is tried before its omission, and its spaces
      greedily. */
  predicate ThatTriedBefore(a: Option<nat>, b: Option<nat>) {
    a.Some? && (b.None? || a.value > b.value)
  }

  function MatchThat(t: string, i: nat): (r: Option<nat>)
    requires i <= |t|
    ensures ThatParses(t, i, r) && i + ThatLength(r) <= |t|
  {
    if ThatWordAt(t, i) then Some(SpaceRun(t, i + 4)) else None
  }

  /** `MatchThat` takes `that` whenever it is there, with all its spaces. */
  lemma ThatIsFirst(t: string, i: nat)
    requires i <= |t|
    ensures forall o :: ThatParses(t, i, o) ==> o == MatchThat(t, i) || ThatTriedBefore(MatchThat(t, i), o)
  {
    forall o: Option<nat> | ThatParses(t, i, o) && o.Some?
      ensures o.value <= SpaceRun(t, i + 4)
    {
      SpaceRunIsMaximal(t, i + 4, o.value);
    }
  }

  /** One reading of the statement: the length of the lazy prefix `(.*?)`,
      whether `,?` took the comma, how many spaces ` *` took, the group, and
      the optional `that *`. The suffix `(.*)` is everything after. */
  datatype Shape = Shape(prefix: nat, comma: bool, lead: nat, group: Group, that: Option<nat>)

  function ClauseStart(sh: Shape): nat {
    sh.prefix + (if sh.comma then 1 else 0) + sh.lead
  }

  function ClauseEnd(sh: Shape): nat {
    ClauseStart(sh) + GroupLength(sh.group)
  }

  function SuffixStart(sh: Shape): nat {
    ClauseEnd(sh) + ThatLength(sh.that)
  }

  /** `sh` is a way for the whole pattern to match `s`; `.` matches no line
      terminator, and `^`/`$` are the ends of the input. */
  predicate ShapeParses(s: string, sh: Shape) {
    && SuffixStart(sh) <= |s|
    && NoLineTerminator(s, 0, sh.prefix)
    && (sh.comma ==> CommaAt(s, sh.prefix))
    && AllSpaces(s, sh.prefix + (if sh.comma then 1 else 0), ClauseStart(sh))
    && GroupParses(s, ClauseStart(sh), sh.group)
    && ThatParses(s, ClauseEnd(sh), sh.that)
    && NoLineTerminator(s, SuffixStart(sh), |s|)
  }

  /** Order of trial for the whole pattern: the shorter prefix first
      (`.*?` is lazy), then the comma before none, more spaces before fewer,
      then the group's order, then the `that` group's. */
  predicate ShapeTriedBefore(a: Shape, b: Shape) {
    || a.prefix < b.prefix
    || (a.prefix == b.prefix && a.comma && !b.comma)
    || (a.prefix == b.prefix && a.comma == b.comma && a.lead > b.lead)
    || (a.prefix == b.prefix && a.comma == b.comma && a.lead == b.lead
        && GroupTriedBefore(a.group, b.group))
    || (a.prefix == b.prefix && a.comma == b.comma && a.lead == b.lead
        && a.group == b.group && ThatTriedBefore(a.that, b.that))
  }

  /** `r` is the reading the engine settles on among those whose prefix is
      exactly `k` characters long. */
  ghost predicate FirstWithPrefix(s: string, k: nat, r: Shape) {
    && ShapeParses(s, r)
    && r.prefix == k
    && forall sh :: ShapeParses(s, sh) && sh.prefix == k ==> sh == r || ShapeTriedBefore(r, sh)
  }

  /** What the engine reports once it has moved the end of the lazy prefix
      to `k`: the first reading there, or nothing when there is none. */
  ghost predicate PrefixAnswers(s: string, k: nat, r: Option<Shape>) {
    match r
    case Some(sh) => FirstWithPrefix(s, k, sh)
    case None => forall sh :: ShapeParses(s, sh) ==> sh.prefix != k
  }

  /** Whether `,?` takes a comma after a prefix of length `k`. */
  predicate CommaAt(s: string, k: nat) {
    k < |s| && s[k] == ','
  }

  /** How many spaces ` *` takes after a prefix of length `k`. */
  function LeadAt(s: string, k: nat): nat
    requires k <= |s|
  {
    SpaceRun(s, k + if CommaAt(s, k) then 1 else 0)
  }

  /** Where the group starts after a prefix of length `k`. */
  function GroupStartAt(s: string, k: nat): (a: nat)
    requires k <= |s|
    ensures a <= |s|
  {
    k + (if CommaAt(s, k) then 1 else 0) + LeadAt(s, k)
  }

  /** The reading with prefix length `k` built around the group `o` found
      after the comma and the spaces. */
  function WithGroup(s: string, k: nat, o: Option<Group>): (r: Option<Shape>)
    requires k <= |s|
    requires o.Some? ==> GroupStartAt(s, k) + GroupLength(o.value) <= |s|
    ensures r.Some? ==> r.value.prefix == k && SuffixStart(r.value) <= |s|
  {
    match o
    case None => None
    case Some(g) =>
      Some(Shape(k, CommaAt(s, k), LeadAt(s, k), g, MatchThat(s, GroupStartAt(s, k) + GroupLength(g))))
  }

  /** The reading with prefix length `k`, if there is one. */
  function MatchWithPrefix(s: string, k: nat): (r: Option<Shape>)
    requires k <= |s|
    ensures r.Some? ==> r.value.prefix == k && SuffixStart(r.value) <= |s|
  {
    WithGroup(s, k, MatchGroup(s, GroupStartAt(s, k)))
  }

  /** `MatchWithPrefix` returns the first reading with prefix length `k`,
      and nothing only when there is none. */
  lemma WithPrefixIsFirst(s: string, k: nat)
    requires k <= |s| && NoLineTerminator(s, 0, |s|)
    ensures PrefixAnswers(s, k, MatchWithPrefix(s, k))
  {
    var a := GroupStartAt(s, k);
    GroupIsFirst(s, a);
    WithGroupIsFirst(s, k, MatchGroup(s, a));
  }

  /** The first group makes the first reading with prefix length `k`. */
  lemma WithGroupIsFirst(s: string, k: nat, o: Option<Group>)
    requires k <= |s| && NoLineTerminator(s, 0, |s|)
    requires o.Some? ==> GroupStartAt(s, k) + GroupLength(o.value) <= |s|
    requires GroupAnswers(s, GroupStartAt(s, k), o)
    ensures PrefixAnswers(s, k, WithGroup(s, k, o))
  {
    match o
    case None =>
      PrefixNone(s, k);
    case Some(g) =>
      PrefixChoice(s, k, g);
  }

  /** Every reading with prefix length `k` takes the comma exactly when there
      is one and then all the spaces: otherwise the group would start with a
      comma or a space. */
  lemma LeadIn(s: string, k: nat)
    requires k <= |s|
    ensures forall sh :: ShapeParses(s, sh) && sh.prefix == k ==>
      sh.comma == CommaAt(s, k) && sh.lead == LeadAt(s, k) && ClauseStart(sh) == GroupStartAt(s, k)
  {
    forall sh | ShapeParses(s, sh) && sh.prefix == k
      ensures sh.comma == CommaAt(s, k) && sh.lead == LeadAt(s, k)
    {
      StartsWithKeywordOrDigit(s, ClauseStart(sh), sh.group.first);
      SpaceRunIsMaximal(s, k + (if sh.comma then 1 else 0), sh.lead);
    }
  }

  /** With the comma and the spaces fixed, no group means no reading. */
  lemma PrefixNone(s: string, k: nat)
    requires k <= |s|
    requires GroupAnswers(s, GroupStartAt(s, k), None)
    ensures PrefixAnswers(s, k, None)
  {
    LeadIn(s, k);
    forall sh | ShapeParses(s, sh) && sh.prefix == k
      ensures false
    {
    }
  }

  /** Once the comma and the spaces are fixed, the first group and the first
      `that` make the first reading with prefix length `k`. */
  lemma PrefixChoice(s: string, k: nat, g: Group)
    requires k <= |s| && NoLineTerminator(s, 0, |s|)
    requires GroupStartAt(s, k) + GroupLength(g) <= |s|
    requires FirstGroup(s, GroupStartAt(s, k), g)
    ensures forall r | r == WithGroup(s, k, Some(g)) :: PrefixAnswers(s, k, r)
  {
    var a := GroupStartAt(s, k);
    var e := a + GroupLength(g);
    var r := Shape(k, CommaAt(s, k), LeadAt(s, k), g, MatchThat(s, e));
    assert WithGroup(s, k, Some(g)) == Some(r);
    assert ClauseStart(r) == a && ClauseEnd(r) == e;
    ThatIsFirst(s, e);
    LeadIn(s, k);
    assert ShapeParses(s, r);
    forall sh | ShapeParses(s, sh) && sh.prefix == k
      ensures sh == r || ShapeTriedBefore(r, sh)
    {
      if sh.group == r.group {
        assert ClauseEnd(sh) == e;
      }
    }
  }

  /** `r` is the reading the engine settles on among those whose prefix is
      at least `k` characters long. */
  ghost predicate FirstFrom(s: string, k: nat, r: Shape) {
    && ShapeParses(s, r)
    && k <= r.prefix
    && forall sh :: ShapeParses(s, sh) && k <= sh.prefix ==> sh == r || ShapeTriedBefore(r, sh)
  }

  /** What the lazy search reports from `k` on. */
  ghost predicate FromAnswers(s: string, k: nat, r: Option<Shape>) {
    match r
    case Some(sh) => FirstFrom(s, k, sh)
    case None => forall sh :: ShapeParses(s, sh) ==> sh.prefix < k
  }

  /** The lazy search: the first prefix length from `k` on that admits a
      reading. */
  function MatchFrom(s: string, k: nat): (r: Option<Shape>)
    requires k <= |s| + 1
    ensures r.Some? ==> k <= r.value.prefix && SuffixStart(r.value) <= |s|
    decreases |s| + 1 - k
  {
    if k > |s| then None
    else
      match MatchWithPrefix(s, k)
      case Some(sh) => Some(sh)
      case None => MatchFrom(s, k + 1)
  }

  /** `MatchFrom` returns the first reading whose prefix is at least `k`
      long, and nothing only when there is none. */
  lemma {:induction false} FromIsFirst(s: string, k: nat)
    requires k <= |s| + 1 && NoLineTerminator(s, 0, |s|)
    ensures forall r | r == MatchFrom(s, k) :: FromAnswers(s, k, r)
    decreases |s| + 1 - k
  {
    if k > |s| {
      forall sh | ShapeParses(s, sh)
        ensures sh.prefix < k
      {
      }
    } else {
      WithPrefixIsFirst(s, k);
      match MatchWithPrefix(s, k)
      case Some(sh) =>
      case None =>
        FromIsFirst(s, k + 1);
        var r := MatchFrom(s, k + 1);
        assert MatchFrom(s, k) == r;
        FromStep(s, k, k + 1, r);
    }
  }

  /** With no reading of prefix length `k`, the search from `k` reports what
      the search from `k + 1` does. */
  lemma FromStep(s: string, k: nat, j: nat, r: Option<Shape>)
    requires j == k + 1
    requires PrefixAnswers(s, k, None)
    requires forall x | x == r :: FromAnswers(s, j, x)
    ensures forall x | x == r :: FromAnswers(s, k, x)
  {
    assert FromAnswers(s, j, r);
    if r.Some? {
      forall sh | ShapeParses(s, sh) && k <= sh.prefix
        ensures sh == r.value || ShapeTriedBefore(r.value, sh)
      {
      }
    }
  }

  /** `betString.match(extract)`: the match, or `null`. */
  function MatchStatement(s: string): (r: Option<Shape>)
    ensures r.Some? ==> SuffixStart(r.value) <= |s|
    ensures r.Some? ==> NoLineTerminator(s, 0, |s|)
  {
    if LineFree(s, 0) then MatchFrom(s, 0) else None
  }

  /** `MatchStatement` returns the match a backtracking engine reports: a
      reading of the whole pattern tried before every other reading, and
      nothing exactly when the pattern cannot match. */
  lemma StatementIsFirst(s: string)
    ensures var r := MatchStatement(s);
      && (r.Some? ==> ShapeParses(s, r.value))
      && (r.Some? ==> forall sh :: ShapeParses(s, sh) ==> sh == r.value || ShapeTriedBefore(r.value, sh))
      && (r.None? ==> forall sh :: !ShapeParses(s, sh))
  {
    StatementCases(s);
    var r := MatchStatement(s);
    assert FromAnswers(s, 0, r);
  }

  lemma StatementCases(s: string)
    ensures forall r | r == MatchStatement(s) :: FromAnswers(s, 0, r)
  {
    if NoLineTerminator(s, 0, |s|) {
      FromIsFirst(s, 0);
    } else {
      forall sh | ShapeParses(s, sh)
        ensures false
      {
        ShapeCoversInput(s, sh);
      }
    }
  }

  /** No sub-clause can start at `q`: it holds neither a digit nor `at` nor
      `bid`. */
  predicate NoClauseAt(s: string, q: nat) {
    !DigitAt(s, q) && !AtWordAt(s, q) && !BidWordAt(s, q)
  }

  /** No sub-clause can start anywhere from `q` up to `n`, checked position
      by position. */
  predicate Plain(s: string, q: nat, n: nat)
    decreases n - q
  {
    q >= n || (NoClauseAt(s, q) && Plain(s, q + 1, n))
  }

  /** Plain stretches next to each other make one plain stretch. */
  lemma {:induction false} PlainJoin(s: string, q: nat, n: nat, r: nat)
    requires q <= n <= r && Plain(s, q, n) && Plain(s, n, r)
    ensures Plain(s, q, r)
    decreases n - q
  {
    if q < n {
      PlainJoin(s, q + 1, n, r);
    }
  }

  /** No sub-clause reading starts anywhere before `n`. */
  ghost predicate Unread(s: string, n: nat) {
    forall p: nat, m :: p < n ==> !Parses(s, p, m)
  }

  /** The position-by-position check is sufficient: where no digit, `at` or
      `bid` stands, no reading starts. */
  lemma {:induction false} PlainHasNoReading(s: string, q: nat, n: nat)
    requires Plain(s, q, n)
    ensures forall p, m :: q <= p < n ==> !Parses(s, p, m)
    decreases n - q
  {
    if q < n {
      PlainHasNoReading(s, q + 1, n);
      forall m | Parses(s, q, m)
        ensures false
      {
        StartsWithKeywordOrDigit(s, q, m);
      }
    }
  }

  /** No reading has a prefix shorter than `n` when no sub-clause starts
      before `n` and the character before `n` is neither a space nor a
      comma: the clause could only start past that character. */
  lemma NoShorterPrefix(s: string, n: nat)
    requires Unread(s, n)
    requires 0 < n ==> !SpaceAt(s, n - 1) && !CommaAt(s, n - 1)
    ensures forall sh :: ShapeParses(s, sh) ==> n <= sh.prefix
  {
    forall sh | ShapeParses(s, sh)
      ensures n <= sh.prefix
    {
      assert Parses(s, ClauseStart(sh), sh.group.first);
    }
  }

  /** Reading before reading is a strict order: no two readings are each
      tried before the other. */
  lemma ShapeOrderAsymmetric(a: Shape, b: Shape)
    ensures !(ShapeTriedBefore(a, b) && ShapeTriedBefore(b, a))
  {
  }

  /** When no reading has a prefix shorter than `n`, the search from the
      start and the search from `n` report the same reading. */
  lemma SameFrom(s: string, n: nat, r0: Option<Shape>, r1: Option<Shape>)
    requires forall sh :: ShapeParses(s, sh) ==> n <= sh.prefix
    requires FromAnswers(s, 0, r0) && FromAnswers(s, n, r1)
    ensures r0 == r1
  {
    match r0
    case None =>
    case Some(a) =>
      assert ShapeParses(s, a) && n <= a.prefix;
      match r1
      case None =>
      case Some(b) =>
        ShapeOrderAsymmetric(a, b);
  }

  /** No reading has a prefix shorter than `n` when no sub-clause starts
      before `n` and a comma stands at `n`: a shorter prefix would need the
      comma to be read as one of the spaces before the group, or the group
      to start on it. */
  lemma NoPrefixBeforeComma(s: string, n: nat)
    requires Unread(s, n) && CommaAt(s, n)
    ensures forall sh :: ShapeParses(s, sh) ==> n <= sh.prefix
  {
    forall sh | ShapeParses(s, sh)
      ensures n <= sh.prefix
    {
      var a := ClauseStart(sh);
      assert Parses(s, a, sh.group.first);
      StartsWithKeywordOrDigit(s, a, sh.group.first);
      assert sh.prefix < n ==> n < a && SpaceAt(s, n);
    }
  }

  /** The match of a statement in whose first `n` characters no sub-clause
      starts, and which has a comma at `n` or else neither a space nor a comma
      just before `n`, is the first reading with a prefix of at least `n`
      characters. */
  lemma PlainPrefix(s: string, n: nat)
    requires n <= |s| && LineFree(s, 0) && Unread(s, n)
    requires (0 < n ==> !SpaceAt(s, n - 1) && !CommaAt(s, n - 1)) || CommaAt(s, n)
    ensures MatchStatement(s) == MatchFrom(s, n)
  {
    if CommaAt(s, n) {
      NoPrefixBeforeComma(s, n);
    } else {
      NoShorterPrefix(s, n);
    }
    FromIsFirst(s, 0);
    FromIsFirst(s, n);
    SameFrom(s, n, MatchFrom(s, 0), MatchFrom(s, n));
  }

  /** The reading the lazy search settles on at prefix length `n`, assembled
      from what the matchers report at the positions it visits. */
  lemma MatchFromParts(s: string, n: nat, a: nat, j: nat, e: nat, m: SubMatch, second: Option<SubMatch>, that: Option<nat>)
    requires n <= |s| && GroupStartAt(s, n) == a
    requires MatchSubClause(s, a) == Some(m)
    requires j == a + Length(m) && j <= |s| && MatchSubClause(s, j) == second
    requires e == a + GroupLength(Group(m, second)) && e <= |s| && MatchThat(s, e) == that
    ensures MatchFrom(s, n) == Some(Shape(n, CommaAt(s, n), LeadAt(s, n), Group(m, second), that))
  {
    GroupParts(s, a, j, m, second);
    WithPrefixParts(s, n, a, e, Group(m, second), that);
    FromParts(s, n, Shape(n, CommaAt(s, n), LeadAt(s, n), Group(m, second), that));
  }

  lemma GroupParts(s: string, a: nat, j: nat, m: SubMatch, second: Option<SubMatch>)
    requires a <= |s| && MatchSubClause(s, a) == Some(m)
    requires j == a + Length(m) && j <= |s| && MatchSubClause(s, j) == second
    ensures MatchGroup(s, a) == Some(Group(m, second))
  {
    assert MatchGroup(s, a) == WithFirst(s, a, Some(m));
    WithFirstParts(s, a, j, m, second);
  }

  lemma WithFirstParts(s: string, a: nat, j: nat, m: SubMatch, second: Option<SubMatch>)
    requires j == a + Length(m) && j <= |s| && MatchSubClause(s, j) == second
    ensures WithFirst(s, a, Some(m)) == Some(Group(m, second))
  {
  }

  lemma WithPrefixParts(s: string, n: nat, a: nat, e: nat, g: Group, that: Option<nat>)
    requires n <= |s| && a == GroupStartAt(s, n) && MatchGroup(s, a) == Some(g)
    requires e == a + GroupLength(g) && e <= |s| && MatchThat(s, e) == that
    ensures MatchWithPrefix(s, n) == Some(Shape(n, CommaAt(s, n), LeadAt(s, n), g, that))
  {
  }

  lemma FromParts(s: string, n: nat, sh: Shape)
    requires n <= |s| && MatchWithPrefix(s, n) == Some(sh)
    ensures MatchFrom(s, n) == Some(sh)
  {
  }

  /** A group holds no line terminator. */
  lemma GroupCovers(t: string, a: nat, g: Group)
    requires GroupParses(t, a, g)
    ensures a + GroupLength(g) <= |t| && NoLineTerminator(t, a, a + GroupLength(g))
  {
    var b := a + Length(g.first);
    NoLineTerminatorInside(t, a, g.first);
    if g.second.Some? {
      NoLineTerminatorInside(t, b, g.second.value);
      NoLineTerminatorJoin(t, a, b, b + Length(g.second.value));
    }
  }

  /** Every part of a reading is free of line terminators, so the input is. */
  lemma ShapeCoversInput(s: string, sh: Shape)
    requires ShapeParses(s, sh)
    ensures NoLineTerminator(s, 0, |s|)
  {
    var c := sh.prefix + (if sh.comma then 1 else 0);
    var a := ClauseStart(sh);
    var e := ClauseEnd(sh);
    var f := SuffixStart(sh);
    SpacesHaveNoLineTerminator(s, c, a);
    NoLineTerminatorJoin(s, 0, c, a);
    GroupCovers(s, a, sh.group);
    NoLineTerminatorJoin(s, 0, a, e);
    if sh.that.Some? {
      SpacesHaveNoLineTerminator(s, e + 4, f);
      NoLineTerminatorJoin(s, 0, e + 4, f);
    }
    NoLineTerminatorJoin(s, 0, f, |s|);
  }
}

=== FILE: subclause.dfy ===
/** One sub-clause of the bid/ask grammar, the alternation
      `[0-9]{1,2} *bid *(?:(?=[^0-9])|$)` | `at *[0-9]{1,2} *` | `bid *[0-9]{1,2} *`
    read at position `i` of a text, with the choice a backtracking regular
    expression engine makes among the ways it can match there. The
    look-ahead sees the rest of the text and `$` is its end. */
module SubClause {
  import opened Wrappers
  import opened Text

  /** The three alternatives, in the order the engine tries them. */
  datatype Form = NumBid | At | BidNum

  /** One way to read a sub-clause: the alternative, how many digits
      `[0-9]{1,2}` took, how many spaces the ` *` inside the alternative took
      (`gap`) and how many the final ` *` took (`trail`). */
  datatype SubMatch = SubMatch(form: Form, digits: nat, gap: nat, trail: nat)

  /** `NN bid` and `bid NN` set the bid; `at NN` sets the ask. */
  predicate IsBid(f: Form) {
    f != At
  }

  /** The length of the word a keyword-first alternative starts with. */
  function KeywordLength(f: Form): nat {
    if f == At then 2 else 3
  }

  /** The keyword of a keyword-first alternative is at `i`. */
  predicate KeywordAt(t: string, i: nat, f: Form) {
    if f == At then AtWordAt(t, i) else BidWordAt(t, i)
  }

  /** Where the digits begin, relative to the start of the sub-clause. */
  function DigitsStart(m: SubMatch): nat {
    if m.form == NumBid then 0 else KeywordLength(m.form) + m.gap
  }

  /** How many characters the sub-clause consumes. */
  function Length(m: SubMatch): nat {
    if m.form == NumBid then m.digits + m.gap + 3 + m.trail
    else KeywordLength(m.form) + m.gap + m.digits + m.trail
  }

  /** At `i`: `d` digits, `gap` spaces, `bid`, `trail` spaces, and then no
      digit. */
  predicate NumBidParses(t: string, i: nat, d: nat, gap: nat, trail: nat) {
    var b := i + d + gap;
    && 1 <= d <= 2
    && b + 3 + trail <= |t|
    && AllDigits(t, i, i + d)
    && AllSpaces(t, i + d, b)
    && BidWordAt(t, b)
    && TrailOk(t, b + 3, trail)
  }

  /** ` *(?:(?=[^0-9])|$)` with ` *` taking `n` spaces at `e`: they are
      followed by the end of the text or by something other than a digit. */
  predicate TrailOk(t: string, e: nat, n: nat) {
    && e + n <= |t|
    && AllSpaces(t, e, e + n)
    && !DigitAt(t, e + n)
  }

  /** The spaces ` *(?:(?=[^0-9])|$)` takes at `e`: all of them, or all but
      one when a digit follows them (the last space then satisfies the
      look-ahead); nothing when no space is left to give back. */
  function Trail(t: string, e: nat): (r: Option<nat>)
    requires e <= |t|
  {
    var run := SpaceRun(t, e);
    if !DigitAt(t, e + run) then Some(run)
    else if run > 0 then Some(run - 1)
    else None
  }

  /** `Trail` finds the greedy choice: an admissible count, and no larger
      count is admissible. */
  lemma TrailIsLongest(t: string, e: nat)
    requires e <= |t|
    ensures Trail(t, e).Some? ==> TrailOk(t, e, Trail(t, e).value)
    ensures forall n: nat :: TrailOk(t, e, n) ==> Trail(t, e).Some? && n <= Trail(t, e).value
  {
    var run := SpaceRun(t, e);
    if run > 0 {
      assert SpaceAt(t, e + run - 1);
    }
    forall n: nat | TrailOk(t, e, n)
      ensures Trail(t, e).Some? && n <= Trail(t, e).value
    {
      SpaceRunIsMaximal(t, e, n);
    }
  }

  /** At `i`: the keyword of `f`, `gap` spaces, `d` digits, `trail`
      spaces. */
  predicate KeywordParses(t: string, i: nat, f: Form, gap: nat, d: nat, trail: nat) {
    var p := i + KeywordLength(f) + gap;
    && 1 <= d <= 2
    && p + d + trail <= |t|
    && KeywordAt(t, i, f)
    && AllSpaces(t, i + KeywordLength(f), p)
    && AllDigits(t, p, p + d)
    && AllSpaces(t, p + d, p + d + trail)
  }

  /** `m` is a way for the alternation to match at position `i` of `t`. */
  predicate Parses(t: string, i: nat, m: SubMatch) {
    if m.form == NumBid then NumBidParses(t, i, m.digits, m.gap, m.trail)
    else KeywordParses(t, i, m.form, m.gap, m.digits, m.trail)
  }

  /** The value the sub-clause names, in percent. */
  function Percent(t: string, i: nat, m: SubMatch): (n: nat)
    requires Parses(t, i, m)
    ensures n < 100
  {
    NumberAt(t, i + DigitsStart(m), m.digits)
  }

  function Rank(f: Form): nat {
    match f
    case NumBid => 0
    case At => 1
    case BidNum => 2
  }

  /** The counts of the alternative's quantifiers in the order they occur in
      its pattern. */
  function Counts(m: SubMatch): (nat, nat, nat) {
    if m.form == NumBid then (m.digits, m.gap, m.trail) else (m.gap, m.digits, m.trail)
  }

  /** Every quantifier is greedy, so a larger count is tried first. */
  predicate GreaterCounts(a: (nat, nat, nat), b: (nat, nat, nat)) {
    || a.0 > b.0
    || (a.0 == b.0 && a.1 > b.1)
    || (a.0 == b.0 && a.1 == b.1 && a.2 > b.2)
  }

  /** The engine tries `a` before `b`: an earlier alternative first, and in
      the same alternative the larger counts first. */
  predicate TriedBefore(a: SubMatch, b: SubMatch) {
    || Rank(a.form) < Rank(b.form)
    || (a.form == b.form && GreaterCounts(Counts(a), Counts(b)))
  }

  /** A set of readings: those of one alternative with a given digit count,
      those of one alternative, or all of them. */
  datatype Scope = WithDigits(form: Form, d: nat) | OfForm(form: Form) | Any

  predicate InScope(m: SubMatch, s: Scope) {
    match s
    case WithDigits(f, d) => m.form == f && m.digits == d
    case OfForm(f) => m.form == f
    case Any => true
  }

  /** `m` is the reading the engine settles on among the readings in `s`,
      when whatever follows the sub-clause always matches. */
  ghost predicate FirstIn(t: string, i: nat, m: SubMatch, s: Scope) {
    && Parses(t, i, m)
    && InScope(m, s)
    && forall m' :: Parses(t, i, m') && InScope(m', s) ==> m' == m || TriedBefore(m, m')
  }

  /** No reading in `s` matches at position `i` of `t`. */
  ghost predicate NoneIn(t: string, i: nat, s: Scope) {
    forall m :: Parses(t, i, m) ==> !InScope(m, s)
  }

  /** `r` is what the engine reports at `i` when restricted to the readings
      in `s`: the reading it settles on, or nothing when none matches. */
  ghost predicate Answers(t: string, i: nat, r: Option<SubMatch>, s: Scope) {
    match r
    case Some(m) => FirstIn(t, i, m, s)
    case None => NoneIn(t, i, s)
  }

  /** The first alternative with `d` digits: the spaces before `bid` can only
      be all of them, and the trailing spaces give one back when a digit
      follows them. */
  function MatchNumBidWith(t: string, i: nat, d: nat): (r: Option<SubMatch>)
    requires i <= |t|
    requires d == 1 || d == 2
    ensures r.Some? ==> r.value.form == NumBid && r.value.digits == d
  {
    if !(i + d <= |t| && AllDigits(t, i, i + d)) then
      None
    else
      var gap := SpaceRun(t, i + d);
      if !BidWordAt(t, i + d + gap) then
        None
      else
        match Trail(t, i + d + gap + 3)
        case None => None
        case Some(n) => Some(SubMatch(NumBid, d, gap, n))
  }

  /** `MatchNumBidWith` returns the reading with `d` digits the engine tries
      first, and nothing only when there is none. */
  lemma NumBidWithIsFirst(t: string, i: nat, d: nat)
    requires i <= |t|
    requires d == 1 || d == 2
    ensures Answers(t, i, MatchNumBidWith(t, i, d), WithDigits(NumBid, d))
  {
    NumBidWithCases(t, i, d);
  }

  /* Several lemmas here state facts as `forall r | r == F(..) :: P(r)`, a
     quantifier over the one value `F(..)`. That is the same fact
     as `P(F(..))`, but the verifier instantiates it only where a proof asks
     about `P` of that value, instead of unfolding `P` and `F` at every call;
     requires clauses of the same form hand a fact over the same way. Where
     callers need it, an `...IsFirst` lemma states the plain `P(F(..))`. */
  lemma NumBidWithCases(t: string, i: nat, d: nat)
    requires i <= |t|
    requires d == 1 || d == 2
    ensures forall r | r == MatchNumBidWith(t, i, d) :: Answers(t, i, r, WithDigits(NumBid, d))
  {
    if !(i + d <= |t| && AllDigits(t, i, i + d)) {
      forall m | Parses(t, i, m) && InScope(m, WithDigits(NumBid, d))
        ensures false
      {
      }
    } else {
      var gap := SpaceRun(t, i + d);
      var b := i + d + gap;
      if !BidWordAt(t, b) {
        NumBidNone(t, i, d);
      } else {
        match Trail(t, b + 3)
        case None =>
          NumBidNone(t, i, d);
        case Some(n) =>
          assert MatchNumBidWith(t, i, d) == Some(SubMatch(NumBid, d, gap, n));
          NumBidChoice(t, i, d, gap, n);
      }
    }
  }

  /** Every `NN bid` reading with `d` digits takes the whole run of spaces
      before `bid`, and an admissible number of spaces after it. */
  lemma NumBidReading(t: string, i: nat, m: SubMatch)
    requires m.form == NumBid && i + Length(m) <= |t|
    requires forall x | x == m :: Parses(t, i, x)
    ensures m.gap == SpaceRun(t, i + m.digits)
    ensures var e := i + m.digits + m.gap + 3;
      Trail(t, e).Some? && m.trail <= Trail(t, e).value
  {
    assert Parses(t, i, m);
    SpaceRunIsMaximal(t, i + m.digits, m.gap);
    TrailIsLongest(t, i + m.digits + m.gap + 3);
  }

  /** No `NN bid` reading with `d` digits exists when the greedy one fails. */
  lemma NumBidNone(t: string, i: nat, d: nat)
    requires d == 1 || d == 2
    requires i + d <= |t|
    requires AllDigits(t, i, i + d) ==>
      var b := i + d + SpaceRun(t, i + d);
      BidWordAt(t, b) ==> Trail(t, b + 3).None?
    ensures NoneIn(t, i, WithDigits(NumBid, d))
  {
    forall m | Parses(t, i, m) && InScope(m, WithDigits(NumBid, d))
      ensures false
    {
      NumBidReading(t, i, m);
    }
  }

  /** The reading with the whole gap and the longest admissible trailing run
      is the first one with `d` digits. */
  lemma NumBidChoice(t: string, i: nat, d: nat, gap: nat, trail: nat)
    requires d == 1 || d == 2
    requires i + d <= |t| && AllDigits(t, i, i + d)
    requires gap == SpaceRun(t, i + d) && BidWordAt(t, i + d + gap)
    requires Trail(t, i + d + gap + 3) == Some(trail)
    ensures FirstIn(t, i, SubMatch(NumBid, d, gap, trail), WithDigits(NumBid, d))
  {
    var r := SubMatch(NumBid, d, gap, trail);
    TrailIsLongest(t, i + d + gap + 3);
    assert NumBidParses(t, i, d, gap, trail);
    forall m | Parses(t, i, m) && InScope(m, WithDigits(NumBid, d))
      ensures m == r || TriedBefore(r, m)
    {
      NumBidReading(t, i, m);
    }
  }

  /** `NN bid`: the two-digit reading is tried before the one-digit one. */
  function MatchNumBid(t: string, i: nat): (r: Option<SubMatch>)
    requires i <= |t|
    ensures r.Some? ==> r.value.form == NumBid
  {
    var two := MatchNumBidWith(t, i, 2);
    if two.Some? then two else MatchNumBidWith(t, i, 1)
  }

  lemma NumBidIsFirst(t: string, i: nat)
    requires i <= |t|
    ensures Answers(t, i, MatchNumBid(t, i), OfForm(NumBid))
  {
    NumBidCases(t, i);
  }

  lemma NumBidCases(t: string, i: nat)
    requires i <= |t|
    ensures forall r | r == MatchNumBid(t, i) :: Answers(t, i, r, OfForm(NumBid))
  {
    NumBidWithIsFirst(t, i, 2);
    NumBidWithIsFirst(t, i, 1);
    assert forall m :: Parses(t, i, m) && m.form == NumBid ==> m.digits == 1 || m.digits == 2;
  }

  /** How many digits a greedy `[0-9]{1,2}` takes at `p`, 0 when none. */
  function DigitRun(t: string, p: nat): (d: nat)
    requires p <= |t|
    ensures d <= 2 && p + d <= |t| && AllDigits(t, p, p + d)
    ensures d < 2 ==> !DigitAt(t, p + d)
  {
    if DigitAt(t, p) && DigitAt(t, p + 1) then 2
    else if DigitAt(t, p) then 1
    else 0
  }

  /** The reading of `at NN` or `bid NN` at `i` in which every quantifier
      takes all it can; it has no digits when none follow the spaces. */
  function KeywordGreedy(t: string, i: nat, f: Form): (m: SubMatch)
    requires f != NumBid && KeywordAt(t, i, f)
    ensures m.form == f
  {
    var w := i + KeywordLength(f);
    var gap := SpaceRun(t, w);
    var d := DigitRun(t, w + gap);
    SubMatch(f, d, gap, SpaceRun(t, w + gap + d))
  }

  /** `at NN` or `bid NN`: nothing after the digits can fail, so the greedy
      reading is taken whenever it has digits. */
  function MatchKeyword(t: string, i: nat, f: Form): (r: Option<SubMatch>)
    requires f != NumBid
    ensures r.Some? ==> r.value.form == f
  {
    if KeywordAt(t, i, f) && KeywordGreedy(t, i, f).digits > 0 then
      Some(KeywordGreedy(t, i, f))
    else
      None
  }

  lemma KeywordIsFirst(t: string, i: nat, f: Form)
    requires f != NumBid
    ensures Answers(t, i, MatchKeyword(t, i, f), OfForm(f))
  {
    KeywordCases(t, i, f);
  }

  lemma KeywordCases(t: string, i: nat, f: Form)
    requires f != NumBid
    ensures forall r | r == MatchKeyword(t, i, f) :: Answers(t, i, r, OfForm(f))
  {
    if KeywordAt(t, i, f) && KeywordGreedy(t, i, f).digits > 0 {
      KeywordChoice(t, i, f);
      assert MatchKeyword(t, i, f) == Some(KeywordGreedy(t, i, f));
    } else {
      KeywordNone(t, i, f);
    }
  }

  /** Every keyword-first reading has the greedy reading's gap, at most its
      digits, and with as many digits at most its trailing spaces. */
  lemma KeywordReading(t: string, i: nat, m: SubMatch)
    requires m.form != NumBid && i + Length(m) <= |t|
    requires forall x | x == m :: Parses(t, i, x)
    ensures KeywordAt(t, i, m.form)
    ensures var g := KeywordGreedy(t, i, m.form);
      && m.gap == g.gap && m.digits <= g.digits
      && (m.digits == g.digits ==> m.trail <= g.trail)
  {
    assert Parses(t, i, m);
    var w := i + KeywordLength(m.form);
    var p := w + m.gap;
    assert DigitAt(t, p);
    if m.digits == 2 {
      assert DigitAt(t, p + 1);
    }
    SpaceRunIsMaximal(t, w, m.gap);
    SpaceRunIsMaximal(t, p + m.digits, m.trail);
  }

  lemma KeywordNone(t: string, i: nat, f: Form)
    requires f != NumBid
    requires KeywordAt(t, i, f) ==> KeywordGreedy(t, i, f).digits == 0
    ensures NoneIn(t, i, OfForm(f))
  {
    forall m | Parses(t, i, m) && InScope(m, OfForm(f))
      ensures false
    {
      KeywordReading(t, i, m);
    }
  }

  /** The greedy reading, when it has digits, is the first one. */
  lemma KeywordChoice(t: string, i: nat, f: Form)
    requires f != NumBid
    requires KeywordAt(t, i, f) && KeywordGreedy(t, i, f).digits > 0
    ensures forall x | x == KeywordGreedy(t, i, f) :: FirstIn(t, i, x, OfForm(f))
  {
    var r := KeywordGreedy(t, i, f);
    assert forall x | x == r :: Parses(t, i, x);
    forall m | Parses(t, i, m) && InScope(m, OfForm(f))
      ensures m == r || TriedBefore(r, m)
    {
      KeywordReading(t, i, m);
      KeywordOrder(r, m);
    }
  }

  /** Among readings of one keyword alternative with the same gap, the one
      with the most digits and then the most trailing spaces comes first. */
  lemma KeywordOrder(r: SubMatch, m: SubMatch)
    requires r.form == m.form && r.form != NumBid
    requires m.gap == r.gap && m.digits <= r.digits
    requires m.digits == r.digits ==> m.trail <= r.trail
    ensures m == r || TriedBefore(r, m)
  {
  }

  /** The whole alternation at `i`: the first alternative that matches at
      all, read the way the engine reads it. */
  function MatchSubClause(t: string, i: nat): (r: Option<SubMatch>)
    requires i <= |t|
    ensures r.Some? ==> i + Length(r.value) <= |t|
  {
    var a := MatchNumBid(t, i);
    if a.Some? then
      NumBidIsFirst(t, i);
      LengthBounds(t, i, a.value);
      a
    else
      var b := MatchKeyword(t, i, At);
      if b.Some? then
        KeywordIsFirst(t, i, At);
        LengthBounds(t, i, b.value);
        b
      else
        var c := MatchKeyword(t, i, BidNum);
        if c.Some? then
          KeywordIsFirst(t, i, BidNum);
          LengthBounds(t, i, c.value);
          c
        else
          c
  }

  /** `MatchSubClause` returns the reading the engine settles on at `i`, and
      nothing exactly when the alternation cannot match there. */
  lemma SubClauseIsFirst(t: string, i: nat)
    requires i <= |t|
    ensures Answers(t, i, MatchSubClause(t, i), Any)
  {
    SubClauseCases(t, i);
  }

  lemma SubClauseCases(t: string, i: nat)
    requires i <= |t|
    ensures forall r | r == MatchSubClause(t, i) :: Answers(t, i, r, Any)
  {
    NumBidIsFirst(t, i);
    KeywordIsFirst(t, i, At);
    KeywordIsFirst(t, i, BidNum);
    assert forall m :: Parses(t, i, m) ==> InScope(m, OfForm(m.form));
  }

  /** Every sub-clause is at least three characters long. */
  lemma LengthBounds(t: string, i: nat, m: SubMatch)
    requires Parses(t, i, m)
    ensures 3 <= Length(m) && i + Length(m) <= |t|
  {
  }

  /** A sub-clause starts with a digit, `at` or `bid`; in particular never
      with a space or a comma. */
  lemma StartsWithKeywordOrDigit(t: string, i: nat, m: SubMatch)
    requires Parses(t, i, m)
    ensures i < |t|
    ensures DigitAt(t, i) || AtWordAt(t, i) || BidWordAt(t, i)
    ensures !SpaceAt(t, i) && t[i] != ','
  {
    if m.form == NumBid {
      assert DigitAt(t, i);
    }
  }

  /** A sub-clause consists of digits, spaces and the letters of its
      keyword, so it holds no line terminator. */
  lemma NoLineTerminatorInside(t: string, i: nat, m: SubMatch)
    requires Parses(t, i, m)
    ensures i + Length(m) <= |t| && NoLineTerminator(t, i, i + Length(m))
  {
    var w := i + DigitsStart(m);
    forall k | i <= k < i + Length(m)
      ensures !LineTerminatorAt(t, k)
    {
      if m.form == NumBid {
        var b := i + m.digits + m.gap;
        if k < i + m.digits {
          assert DigitAt(t, k);
        } else if k < b {
          assert SpaceAt(t, k);
        } else if k >= b + 3 {
          assert SpaceAt(t, k);
        }
      } else {
        var p := i + KeywordLength(m.form);
        if p <= k < w {
          assert SpaceAt(t, k);
        } else if w <= k < w + m.digits {
          assert DigitAt(t, k);
        } else if k >= w + m.digits {
          assert SpaceAt(t, k);
        }
      }
    }
  }

  /** Spaces of `s` stay spaces in the window `s[a..e]`. */
  lemma SpacesInWindow(s: string, a: nat, e: nat, x: nat, y: nat)
    requires a + y <= e <= |s| && AllSpaces(s, a + x, a + y)
    ensures AllSpaces(s[a..e], x, y)
  {
    forall k | x <= k < y
      ensures SpaceAt(s[a..e], k)
    {
      assert SpaceAt(s, a + k);
    }
  }

  /** Digits of `s` stay digits in the window `s[a..e]`. */
  lemma DigitsInWindow(s: string, a: nat, e: nat, x: nat, y: nat)
    requires a + y <= e <= |s| && AllDigits(s, a + x, a + y)
    ensures AllDigits(s[a..e], x, y)
  {
    forall k | x <= k < y
      ensures DigitAt(s[a..e], k)
    {
      assert DigitAt(s, a + k);
    }
  }

  /** A reading at `a` that ends by `e` is still a reading at the start of the
      window `s[a..e]`, and captures the same number there: the window's end
      satisfies the `$` of the look-ahead wherever `s` had a non-digit. */
  lemma ParsesInWindow(s: string, a: nat, e: nat, m: SubMatch)
    requires a + Length(m) <= e <= |s|
    requires Parses(s, a, m)
    ensures Parses(s[a..e], 0, m)
    ensures Percent(s[a..e], 0, m) == Percent(s, a, m)
  {
    var w := s[a..e];
    var p := DigitsStart(m);
    if m.form == NumBid {
      var b := m.digits + m.gap;
      DigitsInWindow(s, a, e, 0, m.digits);
      SpacesInWindow(s, a, e, m.digits, b);
      SpacesInWindow(s, a, e, b + 3, b + 3 + m.trail);
      assert BidWordAt(s, a + b);
      assert BidWordAt(w, b);
      assert !DigitAt(w, b + 3 + m.trail) by {
        if b + 3 + m.trail < |w| {
          assert w[b + 3 + m.trail] == s[a + b + 3 + m.trail];
        }
      }
      assert NumBidParses(w, 0, m.digits, m.gap, m.trail);
    } else {
      var n := KeywordLength(m.form);
      assert KeywordAt(s, a, m.form);
      assert KeywordAt(w, 0, m.form);
      SpacesInWindow(s, a, e, n, p);
      DigitsInWindow(s, a, e, p, p + m.digits);
      SpacesInWindow(s, a, e, p + m.digits, p + m.digits + m.trail);
      assert KeywordParses(w, 0, m.form, m.gap, m.digits, m.trail);
    }
    assert w[p] == s[a + p];
    if m.digits == 2 {
      assert w[p + 1] == s[a + p + 1];
    }
  }

  /** The characters a sub-clause is made of: digits, spaces and the letters
      of `at` and `bid`. */
  predicate ReadingChar(c: char) {
    IsDigit(c) || c == ' ' || c == 'a' || c == 't' || c == 'b' || c == 'i' || c == 'd'
  }

  /** Every character a reading covers is a reading character, so a reading
      never runs across a comma or a full stop. */
  lemma ReadingChars(t: string, i: nat, m: SubMatch)
    requires Parses(t, i, m)
    ensures i + Length(m) <= |t|
    ensures forall k :: i <= k < i + Length(m) ==> ReadingChar(t[k])
  {
    var w := i + DigitsStart(m);
    forall k | i <= k < i + Length(m)
      ensures ReadingChar(t[k])
    {
      if m.form == NumBid {
        var b := i + m.digits + m.gap;
        if k < i + m.digits {
          assert DigitAt(t, k);
        } else if k < b {
          assert SpaceAt(t, k);
        } else if k >= b + 3 {
          assert SpaceAt(t, k);
        }
      } else {
        var p := i + KeywordLength(m.form);
        if p <= k < w {
          assert SpaceAt(t, k);
        } else if w <= k < w + m.digits {
          assert DigitAt(t, k);
        } else if k >= w + m.digits {
          assert SpaceAt(t, k);
        }
      }
    }
  }

  /** A reading that ends by `e` is a reading of the text cut at `e`: where
      the look-ahead saw a non-digit at `e`, the cut text has its end. */
  lemma ParsesInPrefix(s: string, e: nat, i: nat, m: SubMatch)
    requires i + Length(m) <= e <= |s|
    requires Parses(s, i, m)
    ensures Parses(s[..e], i, m)
  {
    var w := s[..e];
    assert w == s[0..e];
    var p := i + DigitsStart(m);
    if m.form == NumBid {
      var b := i + m.digits + m.gap;
      DigitsInWindow(s, 0, e, i, i + m.digits);
      SpacesInWindow(s, 0, e, i + m.digits, b);
      SpacesInWindow(s, 0, e, b + 3, b + 3 + m.trail);
      assert BidWordAt(s, b);
      assert BidWordAt(w, b);
      assert !DigitAt(w, b + 3 + m.trail) by {
        if b + 3 + m.trail < |w| {
          assert w[b + 3 + m.trail] == s[b + 3 + m.trail];
        }
      }
      assert NumBidParses(w, i, m.digits, m.gap, m.trail);
    } else {
      var n := KeywordLength(m.form);
      assert KeywordAt(s, i, m.form);
      assert KeywordAt(w, i, m.form);
      SpacesInWindow(s, 0, e, i + n, p);
      DigitsInWindow(s, 0, e, p, p + m.digits);
      SpacesInWindow(s, 0, e, p + m.digits, p + m.digits + m.trail);
      assert KeywordParses(w, i, m.form, m.gap, m.digits, m.trail);
    }
  }

  /** No sub-clause starts at a letter other than `a` or `b`. */
  lemma NoSubClauseAtLetter(s: string, i: nat)
    requires i < |s| && s[i] != 'a' && s[i] != 'b' && !IsDigit(s[i])
    ensures MatchSubClause(s, i) == None
  {
    assert !DigitAt(s, i);
    assert MatchNumBid(s, i) == None;
  }

  /** A reading that starts at a digit is `NN bid`: its digits are followed
      by a space or by `bid`. */
  lemma NumberReading(t: string, i: nat, m: SubMatch)
    ensures Parses(t, i, m) && DigitAt(t, i) ==>
      && m.form == NumBid
      && (m.digits == 2 ==> DigitAt(t, i + 1))
      && (SpaceAt(t, i + m.digits) || BidWordAt(t, i + m.digits))
  {
  }

  /** A number starts no reading when neither it nor its second digit is
      followed by a space or `bid`. */
  lemma NoReadingAtNumber(t: string, i: nat)
    requires DigitAt(t, i) && !SpaceAt(t, i + 1) && !BidWordAt(t, i + 1)
    requires DigitAt(t, i + 1) ==> !SpaceAt(t, i + 2) && !BidWordAt(t, i + 2)
    ensures forall m :: !Parses(t, i, m)
  {
    forall m
      ensures !Parses(t, i, m)
    {
      NumberReading(t, i, m);
    }
  }

  /** No reading looks behind its start, so a reading at `i` is a reading
      of the text from any earlier `a` on. */
  lemma ParsesInSuffix(s: string, a: nat, i: nat, m: SubMatch)
    requires a <= i && Parses(s, i, m)
    ensures Parses(s[a..], i - a, m)
  {
    var w := s[a..];
    assert w == s[a..|s|];
    var o := i - a;
    var p := o + DigitsStart(m);
    if m.form == NumBid {
      var b := o + m.digits + m.gap;
      DigitsInWindow(s, a, |s|, o, o + m.digits);
      SpacesInWindow(s, a, |s|, o + m.digits, b);
      SpacesInWindow(s, a, |s|, b + 3, b + 3 + m.trail);
      assert BidWordAt(s, a + b);
      assert BidWordAt(w, b);
      assert !DigitAt(w, b + 3 + m.trail) by {
        if b + 3 + m.trail < |w| {
          assert w[b + 3 + m.trail] == s[a + b + 3 + m.trail];
        }
      }
      assert NumBidParses(w, o, m.digits, m.gap, m.trail);
    } else {
      var n := KeywordLength(m.form);
      assert KeywordAt(s, i, m.form);
      assert KeywordAt(w, o, m.form);
      SpacesInWindow(s, a, |s|, o + n, p);
      DigitsInWindow(s, a, |s|, p, p + m.digits);
      SpacesInWindow(s, a, |s|, p + m.digits, p + m.digits + m.trail);
      assert KeywordParses(w, o, m.form, m.gap, m.digits, m.trail);
    }
  }

  /** A reading whose last character is a space took it with its trailing
      ` *`: the last character is otherwise a digit or the `d` of `bid`. */
  lemma EndsInTrail(s: string, i: nat, m: SubMatch, e: nat)
    requires Parses(s, i, m) && e + 1 == i + Length(m) && SpaceAt(s, e)
    ensures m.trail > 0
  {
    if m.form != NumBid {
      assert m.trail == 0 ==> DigitAt(s, e);
    }
  }

  /** Without its last trailing space, such a reading is a reading of the
      text cut before that space. */
  lemma ChopTrail(s: string, i: nat, m: SubMatch, e: nat)
    requires Parses(s, i, m) && e + 1 == i + Length(m) && SpaceAt(s, e)
    ensures m.trail > 0
    ensures Parses(s[..e], i, m.(trail := m.trail - 1))
  {
    EndsInTrail(s, i, m, e);
    var r := m.(trail := m.trail - 1);
    assert Parses(s, i, r);
    ParsesInPrefix(s, e, i, r);
  }
}

=== FILE: text.dfy ===
/** Character classes and string helpers with the meaning they have in
    JavaScript regular expressions and in `String.prototype.trim`. */
module Text {

  /** `[0-9]` */
  predicate IsDigit(c: char) {
    '0' <= c <= '9'
  }

  /** The numeric value of one decimal digit. */
  function DigitValue(c: char): (n: nat)
    requires IsDigit(c)
    ensures n < 10
  {
    (c as int) - ('0' as int)
  }

  /** The characters a non-`s` regular expression `.` refuses to match:
      LF, CR, LINE SEPARATOR and PARAGRAPH SEPARATOR. */
  predicate IsLineTerminator(c: char) {
    c == '\n' || c == '\r' || c == '\U{2028}' || c == '\U{2029}'
  }

  /** What `trim` strips: the WhiteSpace and LineTerminator productions of
      ECMAScript (TAB, VT, FF, ZWNBSP, the space separators and the line
      terminators). */
  predicate IsWhiteSpace(c: char) {
    || c == '\t' || c == '\U{000B}' || c == '\U{000C}' || c == '\U{FEFF}'
    || c == ' ' || c == '\U{00A0}' || c == '\U{1680}'
    || ('\U{2000}' <= c <= '\U{200A}')
    || c == '\U{202F}' || c == '\U{205F}' || c == '\U{3000}'
    || IsLineTerminator(c)
  }

  /** Position `k` of `t` holds a space. */
  predicate SpaceAt(t: string, k: nat) {
    k < |t| && t[k] == ' '
  }

  /** Position `k` of `t` holds a decimal digit. */
  predicate DigitAt(t: string, k: nat) {
    k < |t| && IsDigit(t[k])
  }

  /** Position `k` of `t` holds a line terminator. */
  predicate LineTerminatorAt(t: string, k: nat) {
    k < |t| && IsLineTerminator(t[k])
  }

  /** Positions `i` up to `j` (exclusive) hold spaces. */
  predicate AllSpaces(t: string, i: nat, j: nat) {
    forall k :: i <= k < j ==> SpaceAt(t, k)
  }

  /** Positions `i` up to `j` (exclusive) hold digits. */
  predicate AllDigits(t: string, i: nat, j: nat) {
    forall k :: i <= k < j ==> DigitAt(t, k)
  }

  /** No position from `i` up to `j` (exclusive) holds a line terminator. */
  predicate NoLineTerminator(t: string, i: nat, j: nat) {
    forall k :: i <= k < j ==> !LineTerminatorAt(t, k)
  }

  /** The check `NoLineTerminator(t, i, |t|)` as a scan to the end. */
  function LineFree(t: string, i: nat): (b: bool)
    requires i <= |t|
    ensures b <==> NoLineTerminator(t, i, |t|)
    decreases |t| - i
  {
    if i == |t| then true
    else !LineTerminatorAt(t, i) && LineFree(t, i + 1)
  }

  lemma SpacesHaveNoLineTerminator(t: string, i: nat, j: nat)
    requires AllSpaces(t, i, j)
    ensures NoLineTerminator(t, i, j)
  {
    forall k | i <= k < j
      ensures !LineTerminatorAt(t, k)
    {
      assert SpaceAt(t, k);
    }
  }

  lemma NoLineTerminatorJoin(t: string, i: nat, j: nat, k: nat)
    requires i <= j <= k
    requires NoLineTerminator(t, i, j) && NoLineTerminator(t, j, k)
    ensures NoLineTerminator(t, i, k)
  {
  }

  /** The literal `at` occurs in `t` at position `i`. */
  predicate AtWordAt(t: string, i: nat) {
    i + 2 <= |t| && t[i] == 'a' && t[i + 1] == 't'
  }

  /** The literal `bid` occurs in `t` at position `i`. */
  predicate BidWordAt(t: string, i: nat) {
    i + 3 <= |t| && t[i] == 'b' && t[i + 1] == 'i' && t[i + 2] == 'd'
  }

  /** The literal `that` occurs in `t` at position `i`. */
  predicate ThatWordAt(t: string, i: nat) {
    i + 4 <= |t| && t[i] == 't' && t[i + 1] == 'h' && AtWordAt(t, i + 2)
  }

  /** The length of the run of spaces starting at `i`: what a greedy ` *`
      consumes there when nothing after it forces it to give back. */
  function SpaceRun(t: string, i: nat): (n: nat)
    requires i <= |t|
    ensures i + n <= |t|
    ensures AllSpaces(t, i, i + n)
    ensures !SpaceAt(t, i + n)
    decreases |t| - i
  {
    if SpaceAt(t, i) then 1 + SpaceRun(t, i + 1) else 0
  }

  /** No run of spaces from `i` is longer than `SpaceRun`, and every shorter
      one stops in front of a space. */
  lemma {:induction false} SpaceRunIsMaximal(t: string, i: nat, n: nat)
    requires i + n <= |t|
    requires AllSpaces(t, i, i + n)
    ensures n <= SpaceRun(t, i)
    ensures n < SpaceRun(t, i) ==> SpaceAt(t, i + n)
    decreases n
  {
    if n > 0 {
      assert SpaceAt(t, i);
      SpaceRunIsMaximal(t, i + 1, n - 1);
    }
  }

  /** The value `parseFloat` gives a run of one or two decimal digits. */
  function NumberAt(t: string, i: nat, d: nat): (n: nat)
    requires 1 <= d <= 2
    requires AllDigits(t, i, i + d)
    ensures n < 100
    ensures d == 1 ==> n < 10
  {
    assert DigitAt(t, i);
    if d == 1 then DigitValue(t[i])
    else
      assert DigitAt(t, i + 1);
      10 * DigitValue(t[i]) + DigitValue(t[i + 1])
  }

  /** `s` neither starts nor ends with white space. */
  predicate Trimmed(s: string) {
    |s| == 0 || (!IsWhiteSpace(s[0]) && !IsWhiteSpace(s[|s| - 1]))
  }

  function TrimStart(s: string): (r: string)
    ensures |r| <= |s| && r == s[|s| - |r|..]
    ensures forall k :: 0 <= k < |s| - |r| ==> IsWhiteSpace(s[k])
    ensures |r| == 0 || !IsWhiteSpace(r[0])
  {
    if |s| > 0 && IsWhiteSpace(s[0]) then TrimStart(s[1..]) else s
  }

  function TrimEnd(s: string): (r: string)
    ensures |r| <= |s| && r == s[..|r|]
    ensures forall k :: |r| <= k < |s| ==> IsWhiteSpace(s[k])
    ensures |r| == 0 || !IsWhiteSpace(r[|r| - 1])
  {
    if |s| > 0 && IsWhiteSpace(s[|s| - 1]) then TrimEnd(s[..|s| - 1]) else s
  }

  /** A prefix of a suffix is a slice of the whole. */
  lemma SliceOfSlice(s: string, a: nat, n: nat)
    requires a + n <= |s|
    ensures s[a..][..n] == s[a..a + n]
  {
  }

  /** Only white space stands in `s` before `a` and from `b` on. */
  predicate WhiteSpaceAround(s: string, a: nat, b: nat) {
    && a <= b <= |s|
    && (forall k :: 0 <= k < a ==> IsWhiteSpace(s[k]))
    && (forall k :: b <= k < |s| ==> IsWhiteSpace(s[k]))
  }

  /** Trimming both ends keeps a slice of `s` with only white space around
      it. */
  lemma TrimsToSlice(s: string, r: string)
    requires r == TrimEnd(TrimStart(s))
    ensures exists a: nat, b: nat :: WhiteSpaceAround(s, a, b) && r == s[a..b]
  {
    var t := TrimStart(s);
    var a := |s| - |t|;
    var b := a + |r|;
    assert r == s[a..b] by {
      assert t == s[a..] && r == t[..|r|];
      SliceOfSlice(s, a, |r|);
    }
    assert WhiteSpaceAround(s, a, b) by {
      forall k | b <= k < |s|
        ensures IsWhiteSpace(s[k])
      {
        assert s[k] == t[k - a];
      }
    }
  }

  /** `String.prototype.trim`: `s` without its leading and trailing white
      space. */
  function Trim(s: string): (r: string)
    ensures Trimmed(r)
    ensures |r| == 0 <==> forall k :: 0 <= k < |s| ==> IsWhiteSpace(s[k])
    ensures Trimmed(s) ==> r == s
    ensures exists a: nat, b: nat :: WhiteSpaceAround(s, a, b) && r == s[a..b]
  {
    var r := TrimEnd(TrimStart(s));
    assert |r| > 0 ==> r[0] == TrimStart(s)[0];
    TrimsToSlice(s, r);
    r
  }
}

=== FILE: wrappers.dfy ===
/** The optional value used for JavaScript's `null` / `undefined` results. */
module Wrappers {

  datatype Option<+T> = None | Some(value: T)
}
